=== FILE: README.md ===
# purr, modelled in Dafny

purr is a Slack bot that reports open GitHub pull requests to a channel.
Each channel has a watch list: repository specifiers such as `owner/repo`
or `owner/*`, plus an optional user whitelist. When someone mentions the
bot, the message's second word selects a command: `help`, `show`, `watch`,
`unwatch`, `list` or `whitelist`.

`show` runs a pipeline. It trawls GitHub for every watched repository.
Wildcards are expanded, and each repository's pages are fetched in order.
The records are merged into one stream. Work-in-progress records, and
records of users outside the whitelist, are filtered out. The rest are
formatted as a digest: grouped by repository, with a summary of the count
and the oldest record. The digest is posted back in blocks of lines.

The project models this core as pure functions over immutable data. It is
organised as follows:

- `wrappers.dfy` (`Wrappers`): `Option` and `Result`.
- `strings.dfy` (`Strings`): the parts of Go's `strings` and `fmt` that
  the bot relies on. These are `Split`, `Join`, `Contains`, `HasSuffix`,
  `Fields` and `%d`.
- `seqs.dfy` (`Seqs`): subsequences, order-preserving selection and
  flattening.
- `config.dfy` (`Configuration`): settings, validation, environment
  overrides, and the per-channel watch-list store.
- `users.dfy` (`Users`): the user directory filled at connection time.
- `pull_request.dfy` (`PullRequests`): the provider-neutral record, the
  WIP and whitelist predicates, the display line and the filter stage.
- `merge.dfy` (`Merge`): the fan-in of several record streams, under any
  scheduler.
- `format.dfy` (`Format`): grouping, the oldest-record scan and rendering
  of the digest.
- `github.dfy` (`GitHub`): specifier expansion, the page loop and the
  trawl.
- `commands.dfy` (`Commands`): the six commands.
- `dispatch.dfy` (`Dispatch`): first-match dispatch, posting in blocks,
  and the fallback reply.

Everything the program gets from outside becomes a parameter:

- The GitHub API is an `Api` value of two functions.
- The Go scheduler is a `Scheduler` that picks the next input to read.
- Go's map iteration order is a `KeyPicker`.
- `humanize.Time` is a `Humanizer`.
- The clock is `now`, with times as integers.
- `rand.Intn` is `roll`.
- The filesystem is a `Store` map plus a `write` oracle. The oracle says how `ioutil.WriteFile` ends: written, not opened, interrupted after the file was truncated, or failed at close after every byte was written.
- The environment is a map.
- The capacity growth of `append` is a `Growth` function.

## Model

| member | source | states |
|---|---|---|
| Strings.Split | github.go:27 | `strings.Split` on one separator has exactly one more piece than separators. No piece holds the separator. Joining the pieces gives back the input. |
| Strings.SplitJoin | main.go:176 | Splitting the join of separator-free pieces gives back the pieces. |
| Strings.Contains | pull_request.go:25 | `strings.Contains` holds exactly when the substring occurs at some position. |
| Strings.Fields | cmd_watch.go:20 | `strings.Fields` yields non-empty words with no white space in them. Which words these are is stated by `FieldsSpaced` and `Gaps`. |
| Strings.FieldsNone | cmd_watch.go:20 | A text has no fields exactly when it is white space only. |
| Strings.FieldsSpaced | cmd_watch.go:20 | Words separated by any non-empty runs of white space, with optional white space before and after, have exactly those words as their fields. |
| Strings.Gaps | cmd_watch.go:20 | Every text is its fields separated by such runs of white space. Together with `FieldsSpaced` this fixes `Fields` on every input: the fields are the maximal runs of non-space characters, in order. |
| Strings.FieldsJoin | cmd_watch.go:29-30 | Words joined by single spaces split back into the same words. So the field count that commands test is the number of words. |
| Strings.Itoa | pull_request.go:42 | `%d` prints the decimal digits of the value, with a leading `-` for negatives. Reading the digits back gives the value. There is no leading zero, except for the value 0 itself. |
| Strings.JoinLength | main.go:181 | `strings.Join` gives the pieces with one separator between each two, so its length is their total length plus one less than their number. |
| Strings.HasSuffixMeans | cmd_watch.go:39 | `strings.HasSuffix` holds exactly when the text is some prefix followed by the suffix. |
| Strings.DecimalRoundTrip | pull_request.go:42 | The decimal digits of a natural number read back as that number. |
| Seqs.Select | pull_request.go:81-95 | The selected records form a subsequence of the input. Every kept record appears as often as in the input; every other record is absent. |
| Seqs.SelectIdempotent | pull_request.go:84-93 | Selecting twice with the same predicate is selecting once. |
| Seqs.SelectAppend | pull_request.go:84-93 | Selection distributes over concatenation, so it is a per-record stream stage. |
| Configuration.Validate | config.go:100-109 | The GitHub-token error appears exactly when that token is empty, and likewise the Slack-token error. There are no other errors. When both appear, the GitHub error comes first. |
| Configuration.ApplyEnv | config.go:68-79 | Each of the four variables replaces its setting exactly when it is set and non-empty. The admin domain is never touched. |
| Configuration.ApplyEnvIdempotent | config.go:68-79 | Applying the environment twice is applying it once. |
| Configuration.ValidateAfterEnv | config.go:100-109 | After overrides, a token error is reported exactly when neither the file nor the environment supplies the token. |
| Configuration.ReadWatchList | config.go:29-43 | A missing file reads as an empty list for that channel. A read failure becomes the error `Error during watchlist read: ` followed by the reason. A decode failure becomes `Error during watchlist unmarshalling: ` followed by the reason. Otherwise the stored repositories and whitelist come back, with the stored channel or the requested one. |
| Configuration.SaveWatchList | config.go:45-52 | The save reports success exactly when the whole write succeeds. A write that cannot open the file leaves the directory unchanged. A write interrupted after the truncating open leaves the channel's file undecodable. A write that fails only at close still leaves the new document. The file written is the one named by the list's channel, and every other channel's file is unchanged. |
| Configuration.SaveThenRead | config.go:29-52 | Reading the channel back gives the saved list when every byte reached the file, the old answer when the file was never opened, and the `Error during watchlist unmarshalling: ` error when the write stopped part-way. |
| Users.AddUser | main.go:73-80 | The user is stored under its ID, replacing any earlier entry. Other entries are unchanged. |
| Users.GetUser | main.go:82-85 | The lookup finds a user exactly when the ID was added, and returns the stored user. |
| Users.GetAfterAddAll | main.go:109-111 | After adding the connection's user list in order, an ID is found exactly when some user carried it. The last such user wins. |
| PullRequests.IsWIP | pull_request.go:24-26 | A record is work in progress exactly when its title contains `[WIP]` or `WIP:` at some position. |
| PullRequests.WipMarkerAnywhere | pull_request.go:24-26 | Either marker anywhere in the title makes the record work in progress. |
| PullRequests.NoCapitalWNotWIP | pull_request.go:24-26 | A title without a capital W is never work in progress. |
| PullRequests.AnyListed | pull_request.go:32-37 | The scan succeeds exactly when some listed user is the author or the assignee. |
| PullRequests.IsWhiteListed | pull_request.go:28-38 | An empty whitelist admits every record. Otherwise a record is admitted exactly when its author or assignee is listed. |
| PullRequests.Filter | pull_request.go:81-95 | The output is the input in its original order, minus the work-in-progress and non-whitelisted records. Every surviving record keeps its multiplicity. |
| PullRequests.FilterDrops | pull_request.go:86-90 | A work-in-progress record, or one whose author and assignee are both unlisted under a non-empty whitelist, never survives. |
| PullRequests.FilterOpenWhitelist | pull_request.go:28-31 | With an empty whitelist and no work-in-progress titles, the filter passes everything through. |
| PullRequests.FilterIdempotentAndAppend | pull_request.go:84-93 | Filtering twice is filtering once, and filtering distributes over concatenated streams. |
| PullRequests.Display | pull_request.go:40-48 | The display line is the bullet, link, number, title and author part, then the update part. The assignee clause appears between them exactly when there is an assignee. |
| PullRequests.DisplayIsOneLine | pull_request.go:40-48 | A record whose fields, and the humanized time, have no line break displays as a single line. |
| Merge.NextSource | pull_request.go:57-62 | Whatever the scheduler says, the next record is taken from an input that still has records. |
| Merge.MergeAll | pull_request.go:51-77 | The fan-in emits every input record once, tagged with its input. Reading the output for one input gives back that input in its own order, under any scheduler. |
| Merge.MergeIsPermutation | pull_request.go:51-77 | The merged stream is a permutation of all input records together. |
| Merge.MergeSingle | cmd_show.go:44 | Merging a single stream gives back that stream. |
| Format.Repositories | pull_request.go:109-112 | The map keys are the distinct repositories of the records, each exactly once. |
| Format.IterationOrder | pull_request.go:116 | Any iteration order of the map visits every key exactly once. |
| Format.Sections | pull_request.go:116-122 | The sections follow the iteration order. Each holds its repository's records in arrival order. |
| Format.OldestIndex | pull_request.go:101-107 | The scan finds a record exactly when some record was updated before now. The one it finds was updated before now. Earlier records are strictly newer than it, and later ones are not older. |
| Format.ScanOldest | pull_request.go:101-107 | The `lastUpdated` loop picks the same record as `OldestIndex`. |
| Format.OldestIsMinimum | pull_request.go:101-107 | A unique minimum older than now is the record chosen. |
| Format.Collect | pull_request.go:98-113 | The counter equals the number of records. The oldest exists exactly when some record is older than now. It is the record `OldestIndex` picks: the first strict minimum below now. There is one non-empty section per distinct repository, holding exactly that repository's records. Every record's repository has a section. |
| Format.CollectPartitions | pull_request.go:109-122 | The sections together hold exactly the records, counted with multiplicity. |
| Format.Render | pull_request.go:115-128 | Rendering dereferences a missing oldest record exactly when there are records but none is older than now. |
| Format.SummaryLine | pull_request.go:125-126 | The summary sentence is one line when the oldest record's link and its humanized time have no line break. |
| Format.SummaryAtEnd | pull_request.go:124-127 | A digest with records ends with a blank line, its summary sentence and a line break. |
| Format.FormatRecords | pull_request.go:98-128 | `format` fails with the nil dereference exactly when records exist and none was updated before now. No records render as the empty text. Otherwise the text ends with the summary naming the count and the record `OldestIndex` picks. |
| Format.RenderIsUnlines | pull_request.go:115-128 | The rendered text is one line-terminated line per element: a `*repo*` header, the display lines and a blank line per section, then a blank line and the summary line. |
| Format.SectionsTextAreUnlines | pull_request.go:116-122 | The section loop writes exactly the lines of the sections, in iteration order, each followed by a line break. |
| Format.RecordLinesAreUnlines | pull_request.go:118-120 | The record loop writes each record's display line followed by a line break. |
| Format.UnlinesSplit | main.go:176 | Splitting line-terminated text at line breaks gives its lines plus one final empty piece. |
| GitHub.ExpandSpecifier | github.go:26-45 | A specifier that is not exactly `owner/name` yields nothing. An explicit name yields itself. `owner/*` yields `owner/` plus each repository name the API lists, or nothing when the listing fails. |
| GitHub.ExpandSpecifiers | github.go:25-45 | Every expanded repository name has at least one slash. |
| GitHub.ExpandAppend | github.go:25-45 | Expansion works specifier by specifier: expanding a concatenation concatenates the expansions. |
| GitHub.ExpandExplicit | github.go:32-35 | A list of explicit `owner/name` specifiers expands to itself. |
| GitHub.Normalize | github.go:83-94 | The record carries the repository `owner/name`, and the assignee's login or the empty string when there is none. |
| GitHub.NormalizeAll | github.go:83-98 | Every page record is normalised in order, one for one. |
| GitHub.PageLoop | github.go:63-106 | The page loop sends at most `budget` requests. When it stops for the budget, it has used all of it. `PageLoopKeepsPromise` states the rest. |
| GitHub.PageLoopKeepsPromise | github.go:63-106 | Pages are requested as open, by updated, descending, at consecutive page numbers. The records are exactly those of the answered pages. Every page before the last announced a further page. The loop stops at the first failure or at the first `LastPage == 0`. |
| GitHub.PromiseCons | github.go:63-106 | A page that announced a further page, put in front of a run from the next page that keeps the promise, gives a run from this page that keeps it too. |
| GitHub.FetchPages | github.go:63-106 | Consecutive requests from the first page, keeping records, stopping reasons and the tagged repository, as above. |
| GitHub.FetchLoop | github.go:63-106 | The imperative `for` loop, with its `nextPage` counter, does exactly what `FetchPages` describes. |
| GitHub.FetchRepo | github.go:54-107 | One goroutine's records all carry the repository key built from the first two parts of its name. Its requests start at page 1. |
| GitHub.RepoKey | github.go:59 | For a name with exactly one slash, the key is the name itself. |
| GitHub.Streams | github.go:49-108 | There is one record stream per expanded repository, in order. |
| GitHub.TrawlGitHub | github.go:12-118 | The trawl's output is a fan-in of the per-repository fetches. Reading it per repository gives each fetch's records, and every record carries the key of the repository that produced it. |
| GitHub.TrawlNothing | github.go:110-117 | When nothing is watched, the channel closes with no records. |
| Commands.HelpText | cmd_help.go:10-12 | The six `Help()` texts as constants. It has no contract: each is a fixed string. That the whitelist one spans two lines is `WhiteListHelpBreaks`. |
| Commands.WhiteListHelpBreaks | cmd_whitelist.go:14-18 | The whitelist help text has a line break after its `whitelist add` line, at index 68, so its help entry holds a line break. |
| Commands.CanRespondWords | cmd_watch.go:19-25 | For a message of words separated by white space, a command's `CanRespond` holds exactly when there are at least two words and the second is its keyword. The same holds in cmd_help.go:14-20, cmd_show.go:18-24, cmd_unwatch.go:20-26, cmd_list.go:18-24 and cmd_whitelist.go:20-26. |
| Commands.CanRespondExclusive | cmd_watch.go:19-25 | At most one command accepts a message, because the keywords are distinct. |
| Commands.Authorize | cmd_watch.go:34-41 | The gate passes exactly when the user is known, has an email, and either no admin domain is set or the email ends with it. An unknown user or a missing email gets the approval error before the domain is checked. |
| Commands.WatchRepo | cmd_watch.go:48-57 | The repository is in the result. A known repository leaves the list unchanged. A new one is appended at the end. Distinctness is preserved. |
| Commands.WatchRepoIdempotent | cmd_watch.go:48-57 | Watching the same repository twice is watching it once. |
| Commands.UnwatchRepo | cmd_unwatch.go:47-57 | Every occurrence of the repository is removed. The others keep their order and multiplicity. The list is unchanged exactly when the repository was absent. |
| Commands.UnwatchUndoesWatch | cmd_unwatch.go:47-57 | Unwatching a freshly watched repository restores the list. |
| Commands.WatchIn | cmd_watch.go:48-66 | A watched repository gives the already-watching reply and no write. Otherwise the list is saved with the repository appended and the added reply is given. When the write fails, the save error is given and the directory is what the failed write left. |
| Commands.WatchResponse | cmd_watch.go:28-68 | Exactly three fields are needed, else the usage error. Then the gate, then the read, then the update. Nothing before the save changes the store. |
| Commands.WatchKeepsDistinct | cmd_watch.go:48-63 | Watching keeps a duplicate-free list duplicate-free in the store, whatever the write outcome. |
| Commands.WatchInterrupted | cmd_watch.go:56-62 | A watch whose write stops part-way gives the save error. Afterwards the channel's list reads as the decode error, and every other channel's file is unchanged. |
| Commands.WatchTwice | cmd_watch.go:28-68 | When the first write reaches the file, even if its close fails, a second identical watch command answers that the repository is already watched, and writes nothing. |
| Commands.UnwatchIn | cmd_unwatch.go:47-65 | An unwatched repository gives the was-not-watching reply and no write. Otherwise the list without it is saved and the removed reply is given. When the write fails, the save error is given and the directory is what the failed write left. |
| Commands.UnwatchResponse | cmd_unwatch.go:28-66 | Exactly three fields, the gate, the read, then the update. Nothing before the save changes the store. |
| Commands.WatchThenUnwatch | cmd_unwatch.go:47-65 | When the writes reach the file, even if their close fails, unwatching a repository right after watching it restores the stored list. |
| Commands.RepoLines | cmd_list.go:42-44 | One bullet line per watched repository, in order. |
| Commands.ListResponse | cmd_list.go:26-46 | Exactly two fields, then the read. An empty list gives the not-watching line. Otherwise the header, then one line per repository. |
| Commands.ListLines | cmd_list.go:36-45 | The listing splits into the header, the repository lines and one final empty piece. |
| Commands.ShowDigest | cmd_show.go:44-58 | The digest is never an error. It is the nil-dereference panic exactly when records survive the filter and none is older than now. No surviving records give the empty text. |
| Commands.ShowResponse | cmd_show.go:26-59 | Exactly two fields, then the read. After a successful read the answer is the digest, never an error. |
| Commands.ShowIsFilteredTrawl | cmd_show.go:39-47 | The merge stage is transparent: show digests exactly the filtered GitHub stream. |
| Commands.ShowNothingWatched | cmd_show.go:32-58 | With nothing watched, show answers with the empty text. |
| Commands.WhiteListResponse | cmd_whitelist.go:29-50 | Exactly two fields, else the show command's usage text. Then the read, then the gate, then the fixed not-implemented reply. |
| Commands.HelpEntries | cmd_help.go:24-26 | There is one bullet entry per registered command, in registration order. |
| Commands.HelpConcat | cmd_help.go:23-27 | The help loop's text is the entries, each terminated by a line break. |
| Commands.HelpResponse | cmd_help.go:22-28 | Help always replies, with the entries of the command list. |
| Commands.HelpOutnumbersCommands | cmd_help.go:22-28 | With `whitelist` registered, the help reply splits into more than one line per command plus the trailing empty piece, because the whitelist entry spans two lines. |
| Commands.GetResponse | main.go:158 | Only `watch` and `unwatch` can change the store, and `help` always replies. |
| Dispatch.ResponseText | main.go:159-164 | A reply is posted as it is. An error is posted as its message. |
| Dispatch.FirstMatch | main.go:152-166 | The chosen command is the first in list order that can respond. None is chosen exactly when no command can respond. |
| Dispatch.RegisteredMatch | main.go:63-69 | With the registered command list, the chosen command is the one whose keyword is the message's second word. |
| Dispatch.GrownCapacity | main.go:179 | Appending to a full buffer always leaves room for one more line. |
| Dispatch.PostResponse | main.go:174-191 | The loop as written. An empty response posts nothing. Every line lands in exactly one post, in order. Each post is at least 30 padding lines followed by its lines, and is never empty. The first post is padded with exactly 30 empty lines. Each later post is padded with the previous post's padding plus its line count, the capacity of the full buffer it replaced. |
| Dispatch.ReadLine | main.go:178-189 | One turn of the loop keeps its state: the lines read so far are the posted chunks followed by the unposted ones, and the posts so far are padded and chained as `PostResponse` states. |
| Dispatch.PaddedPostTooLong | main.go:177-181 | A post of the loop as written has more than 30 lines. |
| Dispatch.OneLinePostedAsWritten | main.go:174-191 | Run through the loop as written, with any growth policy, the one-line response `a` is posted as exactly one message: 30 empty lines followed by `a`, which is 31 lines. |
| Dispatch.Chunks | main.go:180-187 | Cutting lines into blocks loses and reorders nothing, every block but the last is full, and the last is non-empty. Lines without a line break give blocks without one. |
| Dispatch.PostInChunks | main.go:174-191 | The loop with the buffer fix. The lines are cut, in order, into ⌈L/30⌉ blocks of 30 lines, the last possibly shorter. Each block is posted unless it joins to the empty message. Every post is non-empty and has at most 30 lines. |
| Dispatch.MessagesBounded | main.go:180-187 | Blocks of at most 30 lines give posts of at most 30 lines, and the empty message is never posted. |
| Dispatch.BlockCount | main.go:180 | Full blocks followed by one non-empty block number ⌈L/30⌉ for L lines. |
| Dispatch.HandleMessage | main.go:147-198 | An unmatched message posts nothing, leaves the store alone and sends one of the four fallback replies. A matched command's response, or its error message, is posted by the loop as written. Every line lands in exactly one post, in order. Every post is at least 30 empty lines followed by its lines, and is never empty. The first post has exactly 30 of them, and each later one has the previous post's padding plus that post's line count. The nil dereference of the show pipeline happens in the handler's goroutine, which nothing recovers, so the whole bot process ends. |
| Dispatch.HandleMessageFixed | main.go:147-198 | The same dispatch with the buffer fix of `PostInChunks`. The blocks hold every line of the response, in order, none is padded, and every post is non-empty with at most 30 lines. |

## Left out

- The Slack RTM connection is not modelled: the event loop, the mention test, `connectToSlack`, and posting itself. Posting becomes returning the messages.
- `handleMessageEvent` runs in its own goroutine. Concurrent handlers, and the races between them on the shared user map and watch-list files, are not modelled.
- Goroutines and channels in `merge`, `filter` and `trawlGitHub` become functions on sequences. The interleaving is the `Scheduler` parameter.
- The OAuth HTTP client is not modelled. `Repositories.List` and `PullRequests.List` are the `Api` parameter. The token is not used by the model.
- `Repositories.List(owner, nil)` returns only the first page of repositories. The model takes the `Api` answer as the whole listing.
- GitHub.PageLoop: it carries the same budget as `FetchPages`, for the same reason.
- GitHub.FetchPages: the source loops until the API reports `LastPage == 0`. The model caps the loop at `budget` requests and reports `BudgetSpent`, because an API that always has more pages would make the loop run forever.
- Logging (`logrus`) and the `debug` flag are not modelled. Neither affects results.
- JSON encoding and decoding of watch lists and the config file, file permissions and `newConfig`'s data-directory setup are not modelled. A stored file is either a decoded document or one of two failure kinds.
- `humanize.Time` and `time.Now` are the `Humanizer` parameter and the `now` parameter. Times are integers.
- `rand.Intn` is the `roll` parameter.
- Dispatch.PostResponse: Go's exact `append` growth policy is the `Growth` parameter, only forced to add room. Where exactly the as-written loop flushes therefore depends on that parameter.
- gitlab.go (`trawlGitLab`) is not part of this model: `show` does not call it.
- `configHelp`, `usageAndExit`, the commented-out `postToSlack` and `main`'s flag parsing are not modelled. They are start-up output only.

## Behaviour of the code worth noting

- An empty digest is the empty text. Nothing is posted for it, because main.go:174 posts only a non-empty response.
- The whitelist command answers any field count other than two with `usage: show` (cmd_whitelist.go:32-34). So the forms its own help text shows, such as `whitelist add <github_username>`, always fail.
- The whitelist help text spans two lines, so with `whitelist` registered the help reply has more lines than commands (`Commands.HelpOutnumbersCommands`).
- The third fallback reply is the literal `Â¿que?`, as written in main.go:194.
- `format` dereferences a nil oldest record when records exist but none was updated before now (pull_request.go:126). That panic is an explicit outcome, not a precondition. It ends the whole bot process, because `handleMessageEvent` runs in its own goroutine (main.go:127) and nothing recovers it.

## Findings

| source | as written | input that shows it | evidently intended | confidence | as-written member | corrected member |
|---|---|---|---|---|---|---|
| main.go:177 | `make([]string, maxLines)` (and `make([]string, cap(lineBuffer))` after each post) builds a buffer of 30 empty strings, not an empty buffer of capacity 30. Every post therefore starts with at least 30 blank lines and is longer than the 30-line bound the loop exists for. | the response `a`, posted as 30 empty lines followed by `a` (31 lines) | `make([]string, 0, maxLines)`: ⌈L/30⌉ posts of at most 30 lines each | high; not executed | Dispatch.PaddedPostTooLong | Dispatch.PostInChunks |

=== FILE: commands.dfy ===
/**
  The chat commands (cmd_*.go): keyword recognition, argument checks, the
  shared authorisation gate and the six handlers. The `Command` interface
  becomes a datatype of command kinds; a handler's dependencies (the
  configuration, the user directory, the watch-list store and the oracles
  of the show pipeline) travel in a `Context`.
*/
module Commands {
  import opened Wrappers
  import opened Strings
  import opened Seqs
  import opened Configuration
  import opened Users
  import opened PullRequests
  import Merge
  import Format
  import GitHub

  datatype Command = HelpCmd | ShowCmd | WatchCmd | UnwatchCmd | ListCmd | WhiteListCmd

  /** The registration order of `main`. */
  const Registered: seq<Command> := [HelpCmd, ShowCmd, WatchCmd, UnwatchCmd, ListCmd, WhiteListCmd]

  /** The word each command answers to, as the second field of the message. */
  function Keyword(c: Command): string
  {
    match c
    case HelpCmd => "help"
    case ShowCmd => "show"
    case WatchCmd => "watch"
    case UnwatchCmd => "unwatch"
    case ListCmd => "list"
    case WhiteListCmd => "whitelist"
  }

  /** Each command's `Help()` text; the whitelist one spans two lines. */
  function HelpText(c: Command): string
  {
    match c
    case HelpCmd => "`help` - ask me for help"
    case ShowCmd => "`show` - show all open pull requests"
    case WatchCmd => "`watch organisation/repo` - add a github repo to the watch list"
    case UnwatchCmd => "`unwatch organisation/repo` - removes a github repo from the watch list"
    case ListCmd => "`list` - list all watched repositories"
    case WhiteListCmd =>
      "`whitelist add <github_username>` - add github user to the whitelist\n"
      + "`whitelist remove <github_username>` - remove github user to the whitelist"
  }

  /** An incoming chat message: its text, its sender's ID and its channel. */
  datatype Message = Message(text: string, user: string, channel: string)

  /**
    `CanRespond`: the message has at least two fields and the second is the
    command's keyword (the first is the mention of the bot); any further
    fields are not looked at.
  */
  predicate CanRespond(c: Command, text: string)
  {
    var f := Fields(text);
    |f| > 1 && f[1] == Keyword(c)
  }

  /**
    A message that is words separated by white space is answered by the
    command whose keyword is its second word, whatever the white space is
    and however many words follow.
  */
  lemma CanRespondWords(c: Command, ws: seq<string>, gaps: seq<string>)
    requires AllWords(ws) && Separates(ws, gaps)
    ensures CanRespond(c, Spaced(ws, gaps)) <==> |ws| > 1 && ws[1] == Keyword(c)
  {
    FieldsSpaced(ws, gaps);
  }

  /** No two commands share a keyword. */
  lemma KeywordInjective(c: Command, d: Command)
    ensures Keyword(c) == Keyword(d) ==> c == d
  {
    if c != d {
      assert Keyword(c)[0] != Keyword(d)[0] || |Keyword(c)| != |Keyword(d)|;
    }
  }

  /** Distinct keywords: at most one command can respond to a message. */
  lemma CanRespondExclusive(c: Command, d: Command, text: string)
    requires CanRespond(c, text) && CanRespond(d, text)
    ensures c == d
  {
    KeywordInjective(c, d);
  }

  /** What a command's `GetResponse` can produce: a reply, an error, or a panic of the goroutine. */
  datatype Response = Reply(text: string) | Error(message: string) | Panic

  /** A response together with the watch-list store after the command. */
  datatype Effect = Effect(response: Response, store: Store)

  /** Everything a handler reads besides the message. */
  datatype Context = Context(
    config: Config,
    users: Directory,
    store: Store,
    write: string -> WriteOutcome,
    api: GitHub.Api,
    pageBudget: nat,
    scheduler: Merge.Scheduler<PullRequest>,
    now: int,
    pick: Format.KeyPicker,
    humanize: Humanizer,
    commands: seq<Command>)

  function NotApproved(userId: string): string
  {
    "I can't let you do that " + userId + ", you are not in my list of approved users."
  }

  function WrongDomain(name: string, domain: string): string
  {
    "I can't let you do that " + name + ", you dont have an `" + domain + "` email address"
  }

  /**
    The gate shared by watch, unwatch and whitelist: the sender must be a
    known user with a non-empty email, and when an admin domain is set the
    email must end with it. The unknown-user check comes first.
  */
  function Authorize(users: Directory, userId: string, adminDomain: string): (r: Result<User, string>)
    ensures r.Success? <==>
      && userId in users
      && users[userId].email != ""
      && (adminDomain == "" || HasSuffix(users[userId].email, adminDomain))
    ensures r.Success? ==> r.value == users[userId]
    ensures userId !in users || users[userId].email == "" ==> r == Failure(NotApproved(userId))
    ensures userId in users && users[userId].email != "" && r.Failure? ==>
      r.error == WrongDomain(users[userId].name, adminDomain)
  {
    match GetUser(users, userId)
    case None => Failure(NotApproved(userId))
    case Some(user) =>
      if user.email == "" then Failure(NotApproved(userId))
      else if adminDomain != "" && !HasSuffix(user.email, adminDomain) then Failure(WrongDomain(user.name, adminDomain))
      else Success(user)
  }

  const WatchUsage := "usage: `watch organisation/repo`"
  const UnwatchUsage := "usage: `unwatch organisation/repo`"

  function Added(repo: string): string { "I've added `" + repo + "` to the watchlist" }
  function AlreadyWatching(repo: string): string { "I'm already watching `" + repo + "`" }
  function Removed(repo: string): string { "I've removed `" + repo + "` from the watchlist" }
  function WasNotWatching(repo: string): string { "I wasn't watching `" + repo + "` to begin with" }

  /** Watching: the list with `repo` appended at the end unless it is already there. */
  function WatchRepo(repos: seq<string>, repo: string): (r: seq<string>)
    ensures repo in r
    ensures repo in repos ==> r == repos
    ensures repo !in repos ==> |r| == |repos| + 1 && r[..|repos|] == repos
    ensures Distinct(repos) ==> Distinct(r)
  {
    if repo in repos then repos else repos + [repo]
  }

  /** Watching twice is watching once. */
  lemma WatchRepoIdempotent(repos: seq<string>, repo: string)
    ensures WatchRepo(WatchRepo(repos, repo), repo) == WatchRepo(repos, repo)
  {
  }

  /** Unwatching: every entry equal to `repo` goes, the others stay in order. */
  function UnwatchRepo(repos: seq<string>, repo: string): (r: seq<string>)
    ensures repo !in r
    ensures IsSubsequence(r, repos)
    ensures forall x :: x != repo ==> multiset(r)[x] == multiset(repos)[x]
    ensures r == repos <==> repo !in repos
  {
    var r := Select(repos, (x: string) => x != repo);
    assert repo in repos ==> multiset(r)[repo] == 0 < multiset(repos)[repo];
    assert repo !in repos ==> r == repos by {
      if repo !in repos {
        SelectAll(repos, (x: string) => x != repo);
      }
    }
    r
  }

  /** Unwatching a repository that watching has just appended gives back the original list. */
  lemma UnwatchUndoesWatch(repos: seq<string>, repo: string)
    requires repo !in repos
    ensures UnwatchRepo(WatchRepo(repos, repo), repo) == repos
  {
    SelectAppend(repos, [repo], (x: string) => x != repo);
    SelectAll(repos, (x: string) => x != repo);
  }

  /** The part of watch after a successful read: append and save, or report that nothing is to do. */
  function WatchIn(w: WatchList, repo: string, ctx: Context): (e: Effect)
    ensures repo in w.repositories ==> e == Effect(Reply(AlreadyWatching(repo)), ctx.store)
    ensures repo !in w.repositories && ctx.write(w.channel).Written? ==>
      e == Effect(Reply(Added(repo)), ctx.store[w.channel := Document(WatchListDoc(Some(w.channel), w.repositories + [repo], w.userWhiteList))])
    ensures repo !in w.repositories && !ctx.write(w.channel).Written? ==>
      e == Effect(Error("I couldn't save the change"), SaveWatchList(ctx.store, w.(repositories := w.repositories + [repo]), ctx.write).store)
  {
    if repo in w.repositories then Effect(Reply(AlreadyWatching(repo)), ctx.store)
    else
      var saved := SaveWatchList(ctx.store, w.(repositories := WatchRepo(w.repositories, repo)), ctx.write);
      if saved.ok then Effect(Reply(Added(repo)), saved.store)
      else Effect(Error("I couldn't save the change"), saved.store)
  }

  /**
    `WatchCmd.GetResponse`: argument count, then the gate, then the read
    (so an unauthorised sender never causes a read); a repository already
    present changes nothing, an absent one is appended and the list saved
    under the list's own channel. An error before the save never changes
    the store; a failed save may have truncated the channel's file.
  */
  function WatchResponse(msg: Message, ctx: Context): (e: Effect)
    ensures |Fields(msg.text)| != 3 ==> e == Effect(Error(WatchUsage), ctx.store)
    ensures |Fields(msg.text)| == 3 && Authorize(ctx.users, msg.user, ctx.config.adminDomain).Failure? ==>
      e == Effect(Error(Authorize(ctx.users, msg.user, ctx.config.adminDomain).error), ctx.store)
    ensures |Fields(msg.text)| == 3 && Authorize(ctx.users, msg.user, ctx.config.adminDomain).Success? ==>
      match ReadWatchList(ctx.store, msg.channel)
      case Failure(err) => e == Effect(Error(err), ctx.store)
      case Success(w) => e == WatchIn(w, Fields(msg.text)[2], ctx)
  {
    var fields := Fields(msg.text);
    if |fields| != 3 then Effect(Error(WatchUsage), ctx.store)
    else match Authorize(ctx.users, msg.user, ctx.config.adminDomain)
      case Failure(err) => Effect(Error(err), ctx.store)
      case Success(_) =>
        match ReadWatchList(ctx.store, msg.channel)
        case Failure(err) => Effect(Error(err), ctx.store)
        case Success(w) => WatchIn(w, fields[2], ctx)
  }

  /** Watch never stores a duplicate: a list without duplicates stays without. */
  lemma WatchKeepsDistinct(w: WatchList, repo: string, ctx: Context)
    requires Distinct(w.repositories)
    ensures var e := WatchIn(w, repo, ctx);
      e.store == ctx.store
      || (w.channel in e.store && (e.store[w.channel].Document? ==> Distinct(e.store[w.channel].doc.repositories)))
  {
    if repo !in w.repositories {
      assert WatchRepo(w.repositories, repo) == w.repositories + [repo];
    }
  }

  /**
    A second identical watch leaves the store as the first one left it,
    and, when the channel's list is stored under its own name, answers
    that the repository is already watched.
  */
  lemma WatchTwice(msg: Message, ctx: Context)
    requires ReadWatchList(ctx.store, msg.channel).Success?
    requires ReadWatchList(ctx.store, msg.channel).value.channel == msg.channel
    requires |Fields(msg.text)| == 3
    requires Authorize(ctx.users, msg.user, ctx.config.adminDomain).Success?
    requires ctx.write(msg.channel).Written? || ctx.write(msg.channel).CloseFailed?
    ensures var once := WatchResponse(msg, ctx);
      var twice := WatchResponse(msg, ctx.(store := once.store));
      twice == Effect(Reply(AlreadyWatching(Fields(msg.text)[2])), once.store)
  {
  }

  /**
    A watch whose write stops part-way reports the save error, and from
    then on the channel's list no longer reads: every later command that
    reads it answers the decode error. Other channels keep their files.
  */
  lemma WatchInterrupted(msg: Message, ctx: Context)
    requires |Fields(msg.text)| == 3
    requires Authorize(ctx.users, msg.user, ctx.config.adminDomain).Success?
    requires ReadWatchList(ctx.store, msg.channel).Success?
    requires ReadWatchList(ctx.store, msg.channel).value.channel == msg.channel
    requires Fields(msg.text)[2] !in ReadWatchList(ctx.store, msg.channel).value.repositories
    requires ctx.write(msg.channel).Interrupted?
    ensures var e := WatchResponse(msg, ctx);
      && e.response == Error("I couldn't save the change")
      && ReadWatchList(e.store, msg.channel) == Failure("Error during watchlist unmarshalling: " + ctx.write(msg.channel).decodeError)
      && forall ch :: ch in ctx.store && ch != msg.channel ==> ch in e.store && e.store[ch] == ctx.store[ch]
  {
  }

  /** The part of unwatch after a successful read: remove and save, or report that it was not watched. */
  function UnwatchIn(w: WatchList, repo: string, ctx: Context): (e: Effect)
    ensures repo !in w.repositories ==> e == Effect(Reply(WasNotWatching(repo)), ctx.store)
    ensures repo in w.repositories && ctx.write(w.channel).Written? ==>
      e == Effect(Reply(Removed(repo)), ctx.store[w.channel := Document(WatchListDoc(Some(w.channel), UnwatchRepo(w.repositories, repo), w.userWhiteList))])
    ensures repo in w.repositories && !ctx.write(w.channel).Written? ==>
      e == Effect(Error("I couldn't save that to by watch list :/"), SaveWatchList(ctx.store, w.(repositories := UnwatchRepo(w.repositories, repo)), ctx.write).store)
  {
    var remaining := UnwatchRepo(w.repositories, repo);
    if repo in w.repositories then
      var saved := SaveWatchList(ctx.store, w.(repositories := remaining), ctx.write);
      if saved.ok then Effect(Reply(Removed(repo)), saved.store)
      else Effect(Error("I couldn't save that to by watch list :/"), saved.store)
    else Effect(Reply(WasNotWatching(repo)), ctx.store)
  }

  /**
    `UnwatchCmd.GetResponse`: the same argument check and gate as watch,
    in the same order; every occurrence of the repository is removed, and
    the list is saved only if something was removed.
  */
  function UnwatchResponse(msg: Message, ctx: Context): (e: Effect)
    ensures |Fields(msg.text)| != 3 ==> e == Effect(Error(UnwatchUsage), ctx.store)
    ensures |Fields(msg.text)| == 3 && Authorize(ctx.users, msg.user, ctx.config.adminDomain).Failure? ==>
      e == Effect(Error(Authorize(ctx.users, msg.user, ctx.config.adminDomain).error), ctx.store)
    ensures |Fields(msg.text)| == 3 && Authorize(ctx.users, msg.user, ctx.config.adminDomain).Success? ==>
      match ReadWatchList(ctx.store, msg.channel)
      case Failure(err) => e == Effect(Error(err), ctx.store)
      case Success(w) => e == UnwatchIn(w, Fields(msg.text)[2], ctx)
  {
    var fields := Fields(msg.text);
    if |fields| != 3 then Effect(Error(UnwatchUsage), ctx.store)
    else match Authorize(ctx.users, msg.user, ctx.config.adminDomain)
      case Failure(err) => Effect(Error(err), ctx.store)
      case Success(_) =>
        match ReadWatchList(ctx.store, msg.channel)
        case Failure(err) => Effect(Error(err), ctx.store)
        case Success(w) => UnwatchIn(w, fields[2], ctx)
  }

  /**
    Watching a repository and then unwatching it, on a channel whose list
    is stored under its own name, leaves that list as it was.
  */
  lemma WatchThenUnwatch(msg: Message, unmsg: Message, ctx: Context)
    requires |Fields(msg.text)| == 3 && |Fields(unmsg.text)| == 3
    requires Fields(unmsg.text)[2] == Fields(msg.text)[2] && unmsg.user == msg.user && unmsg.channel == msg.channel
    requires Authorize(ctx.users, msg.user, ctx.config.adminDomain).Success?
    requires ReadWatchList(ctx.store, msg.channel).Success?
    requires ReadWatchList(ctx.store, msg.channel).value.channel == msg.channel
    requires Fields(msg.text)[2] !in ReadWatchList(ctx.store, msg.channel).value.repositories
    requires ctx.write(msg.channel).Written? || ctx.write(msg.channel).CloseFailed?
    ensures var after := UnwatchResponse(unmsg, ctx.(store := WatchResponse(msg, ctx).store));
      ReadWatchList(after.store, msg.channel) == ReadWatchList(ctx.store, msg.channel)
  {
    var w := ReadWatchList(ctx.store, msg.channel).value;
    UnwatchUndoesWatch(w.repositories, Fields(msg.text)[2]);
  }

  const ListUsage := "usage: list"
  const NotWatchingAny := "I'm currently not watching any repositories\n"
  const WatchingHeader := "I'm currently watching:"

  /** `"• %s\n"` for every repository, in stored order. */
  function RepoLines(repos: seq<string>): (ls: seq<string>)
    ensures |ls| == |repos|
    ensures forall k :: 0 <= k < |repos| ==> ls[k] == "\U{2022} " + repos[k]
  {
    if |repos| == 0 then [] else ["\U{2022} " + repos[0]] + RepoLines(repos[1..])
  }

  /**
    `ListCmd.GetResponse`: exactly two fields, then the read; an empty list
    has a fixed answer, otherwise the header and one bullet line per
    repository, each line ended by a line break.
  */
  function ListResponse(msg: Message, ctx: Context): (r: Response)
    ensures |Fields(msg.text)| != 2 ==> r == Error(ListUsage)
    ensures |Fields(msg.text)| == 2 && ReadWatchList(ctx.store, msg.channel).Failure? ==>
      r == Error(ReadWatchList(ctx.store, msg.channel).error)
    ensures |Fields(msg.text)| == 2 && ReadWatchList(ctx.store, msg.channel).Success? ==>
      var repos := ReadWatchList(ctx.store, msg.channel).value.repositories;
      && (repos == [] ==> r == Reply(NotWatchingAny))
      && (repos != [] ==> r == Reply(Format.Unlines([WatchingHeader] + RepoLines(repos))))
  {
    var fields := Fields(msg.text);
    if |fields| != 2 then Error(ListUsage)
    else match ReadWatchList(ctx.store, msg.channel)
      case Failure(err) => Error(err)
      case Success(w) =>
        if |w.repositories| == 0 then Reply(NotWatchingAny)
        else Reply(WatchingHeader + "\n" + Format.Unlines(RepoLines(w.repositories)))
  }

  /** When no repository name holds a line break, the listing splits into the header, one line per repository, and a final empty piece. */
  lemma ListLines(msg: Message, ctx: Context)
    requires |Fields(msg.text)| == 2 && ReadWatchList(ctx.store, msg.channel).Success?
    requires ReadWatchList(ctx.store, msg.channel).value.repositories != []
    requires forall x :: x in ReadWatchList(ctx.store, msg.channel).value.repositories ==> '\n' !in x
    ensures var repos := ReadWatchList(ctx.store, msg.channel).value.repositories;
      Split(ListResponse(msg, ctx).text, '\n') == [WatchingHeader] + RepoLines(repos) + [""]
  {
    var repos := ReadWatchList(ctx.store, msg.channel).value.repositories;
    var ls := [WatchingHeader] + RepoLines(repos);
    forall i | 0 <= i < |ls| ensures '\n' !in ls[i] {
      if i > 0 {
        assert ls[i] == "\U{2022} " + repos[i - 1];
        assert repos[i - 1] in repos;
      }
    }
    Format.UnlinesSplit(ls);
  }

  const ShowUsage := "usage: show"

  /** The pull requests the show command digests: GitHub's stream, merged (alone), then filtered. */
  function ShowRecords(w: WatchList, ctx: Context): seq<PullRequest>
  {
    var gitHubPRs := GitHub.TrawlGitHub(w, ctx.api, ctx.pageBudget, ctx.scheduler).out;
    var prs := Merge.MergeAll([gitHubPRs], ctx.scheduler).out;
    Filter(w, prs)
  }

  /**
    The digest of the records `prs`: a reply unless a record exists and
    none of them was updated before now (where the source dereferences a
    nil oldest record); with no records the reply is empty.
  */
  function ShowDigest(prs: seq<PullRequest>, ctx: Context): (r: Response)
    ensures !r.Error?
    ensures r.Panic? <==> |prs| > 0 && forall j :: 0 <= j < |prs| ==> prs[j].updated >= ctx.now
    ensures prs == [] ==> r == Reply("")
  {
    match Format.FormatRecords(prs, ctx.now, ctx.pick, ctx.humanize)
    case NilOldest => Panic
    case Rendered(text) => Reply(text)
  }

  /**
    `ShowCmd.GetResponse`: exactly two fields, then the read; after a
    successful read the answer is the digest of the filtered GitHub
    records, never an error.
  */
  function ShowResponse(msg: Message, ctx: Context): (r: Response)
    ensures |Fields(msg.text)| != 2 ==> r == Error(ShowUsage)
    ensures |Fields(msg.text)| == 2 && ReadWatchList(ctx.store, msg.channel).Failure? ==>
      r == Error(ReadWatchList(ctx.store, msg.channel).error)
    ensures |Fields(msg.text)| == 2 && ReadWatchList(ctx.store, msg.channel).Success? ==>
      r == ShowDigest(ShowRecords(ReadWatchList(ctx.store, msg.channel).value, ctx), ctx) && !r.Error?
  {
    var fields := Fields(msg.text);
    if |fields| != 2 then Error(ShowUsage)
    else match ReadWatchList(ctx.store, msg.channel)
      case Failure(err) => Error(err)
      case Success(w) => ShowDigest(ShowRecords(w, ctx), ctx)
  }

  /** The merge stage is transparent: show digests exactly the filtered GitHub stream. */
  lemma ShowIsFilteredTrawl(w: WatchList, ctx: Context)
    ensures ShowRecords(w, ctx) == Filter(w, GitHub.TrawlGitHub(w, ctx.api, ctx.pageBudget, ctx.scheduler).out)
  {
    Merge.MergeSingle(GitHub.TrawlGitHub(w, ctx.api, ctx.pageBudget, ctx.scheduler).out, ctx.scheduler);
  }

  /** With nothing watched, show answers with the empty text (which posts nothing). */
  lemma ShowNothingWatched(msg: Message, ctx: Context)
    requires |Fields(msg.text)| == 2 && ReadWatchList(ctx.store, msg.channel).Success?
    requires ReadWatchList(ctx.store, msg.channel).value.repositories == []
    ensures ShowResponse(msg, ctx) == Reply("")
  {
    var w := ReadWatchList(ctx.store, msg.channel).value;
    var m := GitHub.TrawlGitHub(w, ctx.api, ctx.pageBudget, ctx.scheduler);
    assert GitHub.ExpandSpecifiers(w.repositories, ctx.api) == [];
    GitHub.TrawlNothing(w, ctx.api, ctx.pageBudget, ctx.scheduler);
    ShowIsFilteredTrawl(w, ctx);
  }

  /**
    `WhiteListCmd.GetResponse`: exactly two fields (so the documented
    three-word forms always fail, with the show command's usage text), then
    the read, then the gate; on success a fixed answer, and the store is
    never written.
  */
  function WhiteListResponse(msg: Message, ctx: Context): (r: Response)
    ensures |Fields(msg.text)| != 2 ==> r == Error(ShowUsage)
    ensures |Fields(msg.text)| == 2 && ReadWatchList(ctx.store, msg.channel).Failure? ==>
      r == Error(ReadWatchList(ctx.store, msg.channel).error)
    ensures |Fields(msg.text)| == 2 && ReadWatchList(ctx.store, msg.channel).Success? ==>
      match Authorize(ctx.users, msg.user, ctx.config.adminDomain)
      case Failure(err) => r == Error(err)
      case Success(_) => r == Reply("not implemented yet")
  {
    var fields := Fields(msg.text);
    if |fields| != 2 then Error(ShowUsage)
    else match ReadWatchList(ctx.store, msg.channel)
      case Failure(err) => Error(err)
      case Success(_) =>
        match Authorize(ctx.users, msg.user, ctx.config.adminDomain)
        case Failure(err) => Error(err)
        case Success(_) => Reply("not implemented yet")
  }

  /** The help line of one command. */
  function HelpEntry(c: Command): string
  {
    "\U{2022} " + HelpText(c)
  }

  /** One help entry per registered command, in registration order. */
  function HelpEntries(cmds: seq<Command>): (ls: seq<string>)
    ensures |ls| == |cmds|
    ensures forall k :: 0 <= k < |cmds| ==> ls[k] == HelpEntry(cmds[k])
  {
    if |cmds| == 0 then [] else [HelpEntry(cmds[0])] + HelpEntries(cmds[1..])
  }

  /**
    `HelpCmd.GetResponse`: the concatenation of `"• " + Help() + "\n"` over
    the command list, so one entry per command in registration order; never
    an error.
  */
  function HelpResponse(ctx: Context): (r: Response)
    ensures r == Reply(Format.Unlines(HelpEntries(ctx.commands)))
  {
    Reply(HelpConcat(ctx.commands))
  }

  /** The loop of `HelpCmd.GetResponse`. */
  function HelpConcat(cmds: seq<Command>): (s: string)
    ensures s == Format.Unlines(HelpEntries(cmds))
  {
    if |cmds| == 0 then "" else HelpEntry(cmds[0]) + "\n" + HelpConcat(cmds[1..])
  }

  /** The whitelist help text has a line break inside it, after its `whitelist add` line. */
  lemma WhiteListHelpBreaks()
    ensures |HelpText(WhiteListCmd)| > 68 && HelpText(WhiteListCmd)[68] == '\n'
    ensures '\n' in HelpEntry(WhiteListCmd)
  {
    var add := "`whitelist add <github_username>` - add github user to the whitelist";
    assert |add| == 68;
    assert HelpText(WhiteListCmd)[68] == (add + "\n")[68];
    assert HelpEntry(WhiteListCmd)[70] == HelpText(WhiteListCmd)[68];
  }

  /** Newline-terminated lines hold at least one line break each, and more when one of them holds its own. */
  lemma {:induction false} UnlinesBreaks(ls: seq<string>)
    ensures Count(Format.Unlines(ls), '\n') >= |ls|
    ensures (exists j :: 0 <= j < |ls| && '\n' in ls[j]) ==> Count(Format.Unlines(ls), '\n') > |ls|
    decreases |ls|
  {
    if |ls| > 0 {
      UnlinesBreaks(ls[1..]);
      CountAppend(ls[0] + "\n", Format.Unlines(ls[1..]), '\n');
      CountAppend(ls[0], "\n", '\n');
      CountZero(ls[0], '\n');
      assert Count("\n", '\n') == 1 + Count("", '\n');
      if exists j :: 1 <= j < |ls| && '\n' in ls[j] {
        var j :| 1 <= j < |ls| && '\n' in ls[j];
        assert ls[1..][j - 1] == ls[j];
      }
    }
  }

  /**
    With `whitelist` registered, the help reply has more lines than there
    are commands: its entry spans two lines, so "one line per command"
    does not hold for the help the bot gives.
  */
  lemma HelpOutnumbersCommands(ctx: Context)
    requires WhiteListCmd in ctx.commands
    ensures |Split(HelpResponse(ctx).text, '\n')| > |ctx.commands| + 1
  {
    var ls := HelpEntries(ctx.commands);
    var j :| 0 <= j < |ctx.commands| && ctx.commands[j] == WhiteListCmd;
    WhiteListHelpBreaks();
    assert '\n' in ls[j];
    UnlinesBreaks(ls);
  }

  /** `GetResponse` of each command, with its effect on the store. */
  function GetResponse(c: Command, msg: Message, ctx: Context): (e: Effect)
    ensures c != WatchCmd && c != UnwatchCmd ==> e.store == ctx.store
    ensures c == HelpCmd ==> e.response.Reply?
  {
    match c
    case HelpCmd => Effect(HelpResponse(ctx), ctx.store)
    case ShowCmd => Effect(ShowResponse(msg, ctx), ctx.store)
    case WatchCmd => WatchResponse(msg, ctx)
    case UnwatchCmd => UnwatchResponse(msg, ctx)
    case ListCmd => Effect(ListResponse(msg, ctx), ctx.store)
    case WhiteListCmd => Effect(WhiteListResponse(msg, ctx), ctx.store)
  }
}

=== FILE: config.dfy ===
/**
  Process configuration and the per-channel watch-list store (config.go).
  The environment and the data directory become abstract maps; how a
  write ends is an oracle, because it depends on the filesystem.
*/
module Configuration {
  import opened Wrappers

  /** A channel's policy: the repositories to poll and the users whose pull requests are shown. */
  datatype WatchList = WatchList(channel: string, repositories: seq<string>, userWhiteList: seq<string>)

  /** The settings the bot reads at start-up (the private file path and data directory are left out). */
  datatype Config = Config(
    gitHubToken: string,
    gitLabToken: string,
    gitlabURL: string,
    slackToken: string,
    adminDomain: string)

  /**
    The decoded JSON of a stored watch list. A document without a
    "channel" key leaves the channel the reader asked for in place.
  */
  datatype WatchListDoc = WatchListDoc(channel: Option<string>, repositories: seq<string>, userWhiteList: seq<string>)

  /** What a channel's file holds: a decodable document, a file that cannot be read, or one that does not decode. */
  datatype StoredFile = Document(doc: WatchListDoc) | Unreadable(reason: string) | Malformed(reason: string)

  /** The data directory, keyed by channel; a missing key is a missing file. */
  type Store = map<string, StoredFile>

  const GitHubTokenEmpty := "GitHub token cannot be empty"
  const SlackTokenEmpty := "Slack token cannot be empty"

  /** `Config.validate`: the GitHub token is checked first, then the Slack token; nothing else is checked. */
  function Validate(c: Config): (errs: seq<string>)
    ensures |errs| <= 2
    ensures GitHubTokenEmpty in errs <==> c.gitHubToken == ""
    ensures SlackTokenEmpty in errs <==> c.slackToken == ""
    ensures forall i :: 0 <= i < |errs| ==> errs[i] in {GitHubTokenEmpty, SlackTokenEmpty}
    ensures |errs| == 2 ==> errs == [GitHubTokenEmpty, SlackTokenEmpty]
    ensures errs == [] <==> c.gitHubToken != "" && c.slackToken != ""
  {
    (if c.gitHubToken == "" then [GitHubTokenEmpty] else [])
    + (if c.slackToken == "" then [SlackTokenEmpty] else [])
  }

  /** `os.Getenv`: an unset variable reads as "". */
  function Getenv(env: map<string, string>, key: string): string
  {
    if key in env then env[key] else ""
  }

  /** A non-empty environment value replaces the configured one. */
  function Override(configured: string, env: map<string, string>, key: string): (v: string)
    ensures Getenv(env, key) != "" ==> v == Getenv(env, key)
    ensures Getenv(env, key) == "" ==> v == configured
  {
    if Getenv(env, key) != "" then Getenv(env, key) else configured
  }

  /** The environment step of `newConfig`: four variables override their fields; the admin domain has none. */
  function ApplyEnv(c: Config, env: map<string, string>): (r: Config)
    ensures r.adminDomain == c.adminDomain
    ensures r.gitHubToken == (if Getenv(env, "GITHUB_TOKEN") != "" then env["GITHUB_TOKEN"] else c.gitHubToken)
    ensures r.gitLabToken == (if Getenv(env, "GITLAB_TOKEN") != "" then env["GITLAB_TOKEN"] else c.gitLabToken)
    ensures r.gitlabURL == (if Getenv(env, "GITLAB_URL") != "" then env["GITLAB_URL"] else c.gitlabURL)
    ensures r.slackToken == (if Getenv(env, "SLACK_TOKEN") != "" then env["SLACK_TOKEN"] else c.slackToken)
  {
    c.(gitHubToken := Override(c.gitHubToken, env, "GITHUB_TOKEN"),
       gitLabToken := Override(c.gitLabToken, env, "GITLAB_TOKEN"),
       gitlabURL := Override(c.gitlabURL, env, "GITLAB_URL"),
       slackToken := Override(c.slackToken, env, "SLACK_TOKEN"))
  }

  /** Applying the environment a second time changes nothing. */
  lemma ApplyEnvIdempotent(c: Config, env: map<string, string>)
    ensures ApplyEnv(ApplyEnv(c, env), env) == ApplyEnv(c, env)
  {
  }

  /** After the environment step, a token is reported missing iff neither the file nor the environment supplied it. */
  lemma ValidateAfterEnv(c: Config, env: map<string, string>)
    ensures GitHubTokenEmpty in Validate(ApplyEnv(c, env)) <==> c.gitHubToken == "" && Getenv(env, "GITHUB_TOKEN") == ""
    ensures SlackTokenEmpty in Validate(ApplyEnv(c, env)) <==> c.slackToken == "" && Getenv(env, "SLACK_TOKEN") == ""
  {
  }

  /**
    `Config.WatchList(channel)`: a missing file is an empty list for that
    channel; read and decode failures are errors with the source's prefixes.
  */
  function ReadWatchList(store: Store, channel: string): (r: Result<WatchList, string>)
    ensures channel !in store ==> r == Success(WatchList(channel, [], []))
    ensures r.Failure? <==> channel in store && !store[channel].Document?
    ensures channel in store && store[channel].Unreadable? ==>
      r == Failure("Error during watchlist read: " + store[channel].reason)
    ensures channel in store && store[channel].Malformed? ==>
      r == Failure("Error during watchlist unmarshalling: " + store[channel].reason)
    ensures r.Success? && channel in store ==>
      r.value.repositories == store[channel].doc.repositories
      && r.value.userWhiteList == store[channel].doc.userWhiteList
      && r.value.channel == store[channel].doc.channel.GetOr(channel)
  {
    if channel !in store then Success(WatchList(channel, [], []))
    else match store[channel]
      case Unreadable(reason) => Failure("Error during watchlist read: " + reason)
      case Malformed(reason) => Failure("Error during watchlist unmarshalling: " + reason)
      case Document(doc) => Success(WatchList(doc.channel.GetOr(channel), doc.repositories, doc.userWhiteList))
  }

  /**
    How the filesystem answers one `ioutil.WriteFile`. That call truncates
    the file when it opens it, so only a failed open leaves the old file.
    A write that stops part-way leaves an empty or cut-off document, which
    no longer decodes. A failed close comes after every byte was written.
  */
  datatype WriteOutcome = Written | NotOpened | Interrupted(decodeError: string) | CloseFailed

  /** The document `json.MarshalIndent` produces for a watch list: its channel is always present. */
  function Encode(w: WatchList): WatchListDoc
  {
    WatchListDoc(Some(w.channel), w.repositories, w.userWhiteList)
  }

  /** Whether `SaveWatchList` returned no error, and the data directory it leaves behind. */
  datatype Saved = Saved(ok: bool, store: Store)

  /**
    `Config.SaveWatchList(w)`: the file written is the one named by
    `w.channel`; `write` says how the filesystem answers the write.
  */
  function SaveWatchList(store: Store, w: WatchList, write: string -> WriteOutcome): (r: Saved)
    ensures r.ok <==> write(w.channel).Written?
    ensures write(w.channel).NotOpened? ==> r.store == store
    ensures !write(w.channel).NotOpened? ==> r.store.Keys == store.Keys + {w.channel}
    ensures forall ch :: ch in store && ch != w.channel ==> ch in r.store && r.store[ch] == store[ch]
    ensures write(w.channel).Written? || write(w.channel).CloseFailed? ==>
      w.channel in r.store && r.store[w.channel] == Document(Encode(w))
    ensures write(w.channel).Interrupted? ==>
      w.channel in r.store && r.store[w.channel] == Malformed(write(w.channel).decodeError)
  {
    match write(w.channel)
    case Written => Saved(true, store[w.channel := Document(Encode(w))])
    case NotOpened => Saved(false, store)
    case Interrupted(decodeError) => Saved(false, store[w.channel := Malformed(decodeError)])
    case CloseFailed => Saved(false, store[w.channel := Document(Encode(w))])
  }

  /**
    Reading a channel back after saving its list: the saved list when every
    byte reached the file, the old answer when the file was never opened,
    and a decode error when the write stopped part-way.
  */
  lemma SaveThenRead(store: Store, w: WatchList, write: string -> WriteOutcome)
    ensures var back := ReadWatchList(SaveWatchList(store, w, write).store, w.channel);
      match write(w.channel)
      case Written => back == Success(w)
      case CloseFailed => back == Success(w)
      case NotOpened => back == ReadWatchList(store, w.channel)
      case Interrupted(e) => back == Failure("Error during watchlist unmarshalling: " + e)
  {
  }
}

=== FILE: dispatch.dfy ===
/**
  `handleMessageEvent` (main.go): first-match command dispatch, conversion
  of errors to text, the line-buffer loop that posts the response in
  pieces, and the fallback reply when no command matches. Posting becomes
  appending to the result; the capacity growth of Go's `append` and the
  random choice of the fallback reply are parameters.
*/
module Dispatch {
  import opened Wrappers
  import opened Strings
  import opened Seqs
  import opened Configuration
  import opened Commands

  /** The first command, in list order, that can respond to the text. */
  function FirstMatch(cmds: seq<Command>, text: string): (r: Option<nat>)
    ensures r.None? <==> forall j :: 0 <= j < |cmds| ==> !CanRespond(cmds[j], text)
    ensures r.Some? ==>
      && r.value < |cmds|
      && CanRespond(cmds[r.value], text)
      && forall j :: 0 <= j < r.value ==> !CanRespond(cmds[j], text)
    decreases |cmds|
  {
    if |cmds| == 0 then None
    else if CanRespond(cmds[0], text) then Some(0)
    else
      match FirstMatch(cmds[1..], text)
      case None => None
      case Some(i) => Some(i + 1)
  }

  /** With the registered commands, the command chosen is the one whose keyword is the message's second field. */
  lemma RegisteredMatch(text: string)
    ensures var f := Fields(text);
      match FirstMatch(Registered, text)
      case None => |f| < 2 || forall c :: c in Registered ==> Keyword(c) != f[1]
      case Some(i) => |f| >= 2 && Keyword(Registered[i]) == f[1]
  {
  }

  /** The text `handleMessageEvent` posts for a response: the reply itself, or the error's message. */
  function ResponseText(r: Response): (t: string)
    requires !r.Panic?
    ensures r.Reply? ==> t == r.text
    ensures r.Error? ==> t == r.message
  {
    match r
    case Reply(text) => text
    case Error(message) => message
  }

  const MaxLines := 30

  /** The fallback replies when no command matches; which one is sent is random. */
  const NoMatchReplies: seq<string> := ["eh?", "um?", "\U{00C2}\U{00BF}que?", "meow?"]

  /** Go's `append` growth policy: the capacity it picks for a full slice of capacity `cap`. */
  type Growth = nat -> nat

  /** The capacity after appending to a full slice: the policy's choice, but always room for one more. */
  function GrownCapacity(grow: Growth, cap: nat): (c: nat)
    ensures c > cap
  {
    if grow(cap) > cap then grow(cap) else cap + 1
  }

  /** `make([]string, n)`: n empty strings. */
  function Blanks(n: nat): (b: seq<string>)
    ensures |b| == n
    ensures forall k :: 0 <= k < n ==> b[k] == ""
  {
    seq(n, _ => "")
  }

  /** None of the lines holds a line break. */
  predicate LineFree(ls: seq<string>)
  {
    forall t :: 0 <= t < |ls| ==> '\n' !in ls[t]
  }

  /** Lines without line breaks, joined with line breaks, split back into as many lines. */
  lemma JoinedLineCount(parts: seq<string>)
    requires |parts| > 0
    requires forall t :: 0 <= t < |parts| ==> '\n' !in parts[t]
    ensures |Split(Join(parts, '\n'), '\n')| == |parts|
  {
    JoinNoSep(parts, '\n');
  }

  /**
    A message the posting loop as written sends: its padding of at least
    `MaxLines` empty lines, then the lines of its chunk. It always has more
    than `MaxLines` lines.
  */
  lemma PaddedPostTooLong(pad: nat, chunk: seq<string>)
    requires pad >= MaxLines && |chunk| > 0
    requires forall t :: 0 <= t < |chunk| ==> '\n' !in chunk[t]
    ensures |Split(Join(Blanks(pad) + chunk, '\n'), '\n')| == pad + |chunk| > MaxLines
  {
    JoinedLineCount(Blanks(pad) + chunk);
  }

  lemma FlattenOneMore(chunks: seq<seq<string>>, last: seq<string>)
    ensures Flatten(chunks + [last]) == Flatten(chunks) + last
  {
    FlattenAppend(chunks, [last]);
    assert Flatten([last]) == last + Flatten([]);
  }

  lemma JoinNonEmpty(parts: seq<string>, sep: char)
    requires |parts| >= 2
    ensures Join(parts, sep) != ""
  {
    assert |Join(parts, sep)| >= |parts[0] + [sep]|;
  }

  /** A message as the loop as written posts it: at least `MaxLines` empty lines, then a non-empty chunk. */
  predicate PaddedPost(m: string, chunk: seq<string>, pad: nat)
  {
    pad >= MaxLines && |chunk| > 0 && m == Join(Blanks(pad) + chunk, '\n') && m != ""
  }

  /**
    Each buffer after the first is padded with the previous buffer's
    capacity, and a buffer that is not the last is posted only when full:
    so each padding is the previous one plus the lines posted after it.
  */
  predicate Chained(chunks: seq<seq<string>>, pads: seq<nat>)
    requires |chunks| == |pads|
  {
    forall k :: 0 <= k < |pads| - 1 ==> pads[k + 1] == pads[k] + |chunks[k]|
  }

  /** The padding the next buffer starts with: `MaxLines` at first, then the capacity the last posted buffer filled. */
  predicate NextPad(chunks: seq<seq<string>>, pads: seq<nat>, pad: nat)
    requires |chunks| == |pads|
  {
    if |pads| == 0 then pad == MaxLines else pad == pads[|pads| - 1] + |chunks[|chunks| - 1]|
  }

  /** What the loop as written has posted so far: padded posts, the first padded with `MaxLines`, the paddings chained. */
  predicate PostedAsWritten(posted: seq<string>, chunks: seq<seq<string>>, pads: seq<nat>)
  {
    && |posted| == |chunks| == |pads|
    && (|pads| > 0 ==> pads[0] == MaxLines)
    && Chained(chunks, pads)
    && forall k :: 0 <= k < |posted| ==> PaddedPost(posted[k], chunks[k], pads[k])
  }

  /** Posting one more buffer, padded as the next buffer is, keeps what has been posted as the loop posts it. */
  lemma PostOne(posted: seq<string>, chunks: seq<seq<string>>, pads: seq<nat>, msg: string, chunk: seq<string>, pad: nat)
    requires PostedAsWritten(posted, chunks, pads)
    requires NextPad(chunks, pads, pad)
    requires PaddedPost(msg, chunk, pad)
    ensures PostedAsWritten(posted + [msg], chunks + [chunk], pads + [pad])
  {
    var posted', chunks', pads' := posted + [msg], chunks + [chunk], pads + [pad];
    forall k | 0 <= k < |pads'| - 1
      ensures pads'[k + 1] == pads'[k] + |chunks'[k]|
    {
      if k < |pads| - 1 {
        assert pads'[k + 1] == pads[k + 1] && pads'[k] == pads[k] && chunks'[k] == chunks[k];
      }
    }
    forall k | 0 <= k < |posted'|
      ensures PaddedPost(posted'[k], chunks'[k], pads'[k])
    {
      if k < |posted| {
        assert posted'[k] == posted[k] && chunks'[k] == chunks[k] && pads'[k] == pads[k];
      }
    }
  }

  /**
    Posting the buffer, when it is full or holds the last line, keeps every
    loop fact: the post is padded as the next buffer is, the lines posted
    so far are the lines read so far, and a full buffer's capacity pads the
    buffer after it.
  */
  lemma Flushed(posted: seq<string>, chunks: seq<seq<string>>, pads: seq<nat>, lines: seq<string>, i: nat, pad: nat, pending: seq<string>, cap: nat)
    requires i < |lines|
    requires PostedAsWritten(posted, chunks, pads)
    requires NextPad(chunks, pads, pad)
    requires MaxLines <= pad && |pending| > 0
    requires Flatten(chunks) + pending == lines[..i + 1]
    requires pad + |pending| == cap || i + 1 == |lines|
    ensures Join(Blanks(pad) + pending, '\n') != ""
    ensures PostedAsWritten(posted + [Join(Blanks(pad) + pending, '\n')], chunks + [pending], pads + [pad])
    ensures Flatten(chunks + [pending]) == lines[..i + 1]
    ensures i + 1 < |lines| ==> NextPad(chunks + [pending], pads + [pad], cap)
  {
    var msg := Join(Blanks(pad) + pending, '\n');
    JoinNonEmpty(Blanks(pad) + pending, '\n');
    FlattenOneMore(chunks, pending);
    PostOne(posted, chunks, pads, msg, pending, pad);
  }

  /**
    The state of the loop as written after reading `lines[..i]`. The buffer
    is `Blanks(pad) + pending`, of capacity `cap`: its padding, then the
    lines not posted yet.
  */
  predicate Reading(lines: seq<string>, i: nat, posted: seq<string>, chunks: seq<seq<string>>, pads: seq<nat>, cap: nat, pad: nat, pending: seq<string>)
  {
    && i <= |lines|
    && MaxLines <= pad <= cap
    && pad + |pending| <= cap
    && Flatten(chunks) + pending == lines[..i]
    && (i == |lines| ==> pending == [])
    && PostedAsWritten(posted, chunks, pads)
    && (i < |lines| ==> NextPad(chunks, pads, pad))
  }

  /**
    One turn of the loop as written: a full buffer grows first, the line is
    appended, and a buffer that is then full, or holds the last line, is
    posted and replaced by one padded to its capacity.
  */
  method ReadLine(lines: seq<string>, i: nat, posted: seq<string>, chunks: seq<seq<string>>, pads: seq<nat>, cap: nat, pad: nat, pending: seq<string>, grow: Growth)
    returns (posted': seq<string>, chunks': seq<seq<string>>, pads': seq<nat>, cap': nat, pad': nat, pending': seq<string>)
    requires i < |lines|
    requires Reading(lines, i, posted, chunks, pads, cap, pad, pending)
    ensures Reading(lines, i + 1, posted', chunks', pads', cap', pad', pending')
  {
    posted', chunks', pads', cap', pad' := posted, chunks, pads, cap, pad;
    if pad + |pending| == cap {
      cap' := GrownCapacity(grow, cap);
    }
    pending' := pending + [lines[i]];
    assert lines[..i + 1] == lines[..i] + [lines[i]];
    if pad + |pending'| == cap' || i + 1 == |lines| {
      var msg := Join(Blanks(pad) + pending', '\n');
      Flushed(posted, chunks, pads, lines, i, pad, pending', cap');
      if msg != "" {
        posted' := posted + [msg];
        chunks' := chunks + [pending'];
        pads' := pads + [pad];
      }
      pad' := cap';
      pending' := [];
    }
  }

  /**
    The posting loop as written. The response is split at line breaks;
    each line is appended to a buffer that starts as `MaxLines` empty
    strings (`make([]string, maxLines)` has length 30, not just capacity
    30), and the buffer is posted (joined with line breaks) when it reaches
    its capacity or after the last line, then replaced by a buffer of as
    many empty strings as its capacity. Every line lands in exactly one
    posted message, in order; but every posted message is its padding of
    at least 30 empty lines followed by its lines, so each one is longer
    than the 30-line bound the loop exists for.
  */
  method PostResponse(response: string, grow: Growth) returns (posted: seq<string>, chunks: seq<seq<string>>, pads: seq<nat>)
    ensures response == "" ==> posted == [] && chunks == []
    ensures response != "" ==> Flatten(chunks) == Split(response, '\n')
    ensures |posted| == |chunks| == |pads|
    ensures |pads| > 0 ==> pads[0] == MaxLines
    ensures forall k :: 0 <= k < |pads| - 1 ==> pads[k + 1] == pads[k] + |chunks[k]|
    ensures forall k :: 0 <= k < |posted| ==>
      && pads[k] >= MaxLines
      && |chunks[k]| > 0
      && posted[k] == Join(Blanks(pads[k]) + chunks[k], '\n')
      && posted[k] != ""
  {
    posted, chunks, pads := [], [], [];
    if response == "" {
      return;
    }
    var lines := Split(response, '\n');
    var cap: nat, pad: nat, pending: seq<string> := MaxLines, MaxLines, [];
    var i := 0;
    while i < |lines|
      invariant i <= |lines|
      invariant Reading(lines, i, posted, chunks, pads, cap, pad, pending)
    {
      posted, chunks, pads, cap, pad, pending := ReadLine(lines, i, posted, chunks, pads, cap, pad, pending, grow);
      i := i + 1;
    }
    assert lines[..i] == lines;
  }

  /**
    The loop as written posts the one-line response "a" as a single
    message: 30 empty lines followed by "a", which is 31 lines.
  */
  method OneLinePostedAsWritten(grow: Growth) returns (posted: seq<string>)
    ensures posted == [Join(Blanks(MaxLines) + ["a"], '\n')]
    ensures |Split(posted[0], '\n')| == MaxLines + 1
  {
    var chunks, pads;
    posted, chunks, pads := PostResponse("a", grow);
    var lines := Split("a", '\n');
    assert Count("a", '\n') == 0;
    assert lines == [lines[0]] && lines[0] == Join(lines, '\n') == "a";
    OneChunk(chunks, "a");
    SplitJoin(Blanks(MaxLines) + ["a"], '\n');
  }

  /** Non-empty chunks that flatten to one line are that line alone. */
  lemma OneChunk(chunks: seq<seq<string>>, line: string)
    requires forall k :: 0 <= k < |chunks| ==> |chunks[k]| > 0
    requires Flatten(chunks) == [line]
    ensures chunks == [[line]]
  {
    assert Flatten(chunks) == chunks[0] + Flatten(chunks[1..]);
    assert chunks[0] == [line];
  }

  /** The messages a sequence of blocks is posted as: each block joined with line breaks, and the empty message left out. */
  function Messages(blocks: seq<seq<string>>): seq<string>
  {
    if |blocks| == 0 then []
    else (if Join(blocks[0], '\n') == "" then [] else [Join(blocks[0], '\n')]) + Messages(blocks[1..])
  }

  /** Blocks of at most `MaxLines` lines without line breaks give messages that are not empty and have at most `MaxLines` lines. */
  lemma {:induction false} MessagesBounded(blocks: seq<seq<string>>)
    requires forall k :: 0 <= k < |blocks| ==> |blocks[k]| <= MaxLines
    requires AllLineFree(blocks)
    ensures forall m :: m in Messages(blocks) ==> m != "" && |Split(m, '\n')| <= MaxLines
    decreases |blocks|
  {
    if |blocks| > 0 {
      MessagesBounded(blocks[1..]);
      var m := Join(blocks[0], '\n');
      if m != "" {
        JoinedLineCount(blocks[0]);
      }
    }
  }

  /** Blocks that are full except possibly the last, which is not empty: there are ⌈L/30⌉ of them for L lines. */
  lemma {:induction false} BlockCount(blocks: seq<seq<string>>)
    requires forall k :: 0 <= k < |blocks| ==> 0 < |blocks[k]| <= MaxLines
    requires forall k :: 0 <= k < |blocks| - 1 ==> |blocks[k]| == MaxLines
    ensures |blocks| == (|Flatten(blocks)| + MaxLines - 1) / MaxLines
    decreases |blocks|
  {
    if |blocks| > 1 {
      BlockCount(blocks[1..]);
    }
  }

  /** Blocks of 1 to `MaxLines` lines, all of them full except possibly the last. */
  predicate Cut(blocks: seq<seq<string>>)
  {
    && (forall k :: 0 <= k < |blocks| ==> 0 < |blocks[k]| <= MaxLines)
    && (forall k :: 0 <= k < |blocks| - 1 ==> |blocks[k]| == MaxLines)
  }

  predicate AllLineFree(blocks: seq<seq<string>>)
  {
    forall k :: 0 <= k < |blocks| ==> LineFree(blocks[k])
  }

  /** The lines cut, in order, into blocks of `MaxLines` lines, the last one possibly shorter. */
  function Chunks(lines: seq<string>): (blocks: seq<seq<string>>)
    ensures Flatten(blocks) == lines
    ensures Cut(blocks)
    ensures LineFree(lines) ==> AllLineFree(blocks)
    decreases |lines|
  {
    if |lines| == 0 then []
    else if |lines| <= MaxLines then
      assert Flatten([lines]) == lines + Flatten([]);
      [lines]
    else
      var rest := Chunks(lines[MaxLines..]);
      var blocks := [lines[..MaxLines]] + rest;
      assert blocks[1..] == rest;
      assert lines == lines[..MaxLines] + lines[MaxLines..];
      assert LineFree(lines) ==> LineFree(lines[..MaxLines]) && LineFree(lines[MaxLines..]);
      blocks
  }

  /** What the corrected posting loop produces: the messages posted and the blocks of lines they came from. */
  datatype Posting = Posting(posted: seq<string>, blocks: seq<seq<string>>)

  /**
    The posting loop as evidently intended (`make([]string, 0, maxLines)`,
    both before the loop and after each post): the lines of the response
    are cut into consecutive blocks of `MaxLines` lines, the last one
    possibly shorter; each block is posted joined with line breaks unless
    that gives the empty message.
  */
  function PostInChunks(response: string): (p: Posting)
    ensures response == "" ==> p.posted == [] && p.blocks == []
    ensures response != "" ==> Flatten(p.blocks) == Split(response, '\n')
    ensures forall k :: 0 <= k < |p.blocks| ==> 0 < |p.blocks[k]| <= MaxLines
    ensures forall k :: 0 <= k < |p.blocks| - 1 ==> |p.blocks[k]| == MaxLines
    ensures response != "" ==> |p.blocks| == (|Split(response, '\n')| + MaxLines - 1) / MaxLines
    ensures p.posted == Messages(p.blocks)
    ensures forall m :: m in p.posted ==> m != "" && |Split(m, '\n')| <= MaxLines
  {
    if response == "" then Posting([], [])
    else
      var blocks := Chunks(Split(response, '\n'));
      CutFacts(blocks);
      Posting(Messages(blocks), blocks)
  }

  /** What a cut of the lines guarantees: ⌈L/30⌉ blocks, and posts of at most `MaxLines` lines. */
  lemma CutFacts(blocks: seq<seq<string>>)
    requires Cut(blocks) && AllLineFree(blocks)
    ensures |blocks| == (|Flatten(blocks)| + MaxLines - 1) / MaxLines
    ensures forall m :: m in Messages(blocks) ==> m != "" && |Split(m, '\n')| <= MaxLines
  {
    BlockCount(blocks);
    MessagesBounded(blocks);
  }

  /**
    What handling one message amounts to: the messages posted, the blocks
    of lines they came from, the empty lines each block was padded with,
    the fallback reply, and the store afterwards. `ProcessDied` is the nil
    dereference of the show pipeline: the handler runs in its own goroutine
    (main.go:127) and nothing recovers the panic, so the whole bot process
    ends.
  */
  datatype Handled =
    | Handled(posted: seq<string>, blocks: seq<seq<string>>, pads: seq<nat>, fallback: Option<string>, store: Store)
    | ProcessDied

  /**
    `handleMessageEvent` as written: the first command that can respond
    produces the response, and later ones are not consulted; an error's
    message takes the place of the response; the response is posted by
    the loop of `PostResponse`, so every line lands in exactly one post, in
    order, and every post is at least `MaxLines` empty lines followed by
    its lines; when no command matched nothing is posted and one of the
    fallback replies is sent.
  */
  method HandleMessage(msg: Message, ctx: Context, roll: nat, grow: Growth) returns (h: Handled)
    ensures FirstMatch(ctx.commands, msg.text).None? ==>
      && h.Handled? && h.posted == [] && h.store == ctx.store
      && h.fallback.Some? && h.fallback.value in NoMatchReplies
    ensures FirstMatch(ctx.commands, msg.text).Some? ==>
      var e := GetResponse(ctx.commands[FirstMatch(ctx.commands, msg.text).value], msg, ctx);
      && (h.ProcessDied? <==> e.response.Panic?)
      && (h.Handled? ==>
        && h.fallback.None?
        && h.store == e.store
        && (ResponseText(e.response) == "" ==> h.posted == [])
        && (ResponseText(e.response) != "" ==> Flatten(h.blocks) == Split(ResponseText(e.response), '\n')))
    ensures h.Handled? ==>
      && |h.posted| == |h.blocks| == |h.pads|
      && (|h.pads| > 0 ==> h.pads[0] == MaxLines)
      && (forall k :: 0 <= k < |h.pads| - 1 ==> h.pads[k + 1] == h.pads[k] + |h.blocks[k]|)
      && forall k :: 0 <= k < |h.posted| ==>
        && h.pads[k] >= MaxLines
        && |h.blocks[k]| > 0
        && h.posted[k] == Join(Blanks(h.pads[k]) + h.blocks[k], '\n')
        && h.posted[k] != ""
  {
    match FirstMatch(ctx.commands, msg.text)
    case None =>
      h := Handled([], [], [], Some(NoMatchReplies[roll % |NoMatchReplies|]), ctx.store);
    case Some(i) =>
      var e := GetResponse(ctx.commands[i], msg, ctx);
      if e.response.Panic? {
        h := ProcessDied;
      } else {
        var posted, chunks, pads := PostResponse(ResponseText(e.response), grow);
        h := Handled(posted, chunks, pads, None, e.store);
      }
  }

  /**
    `handleMessageEvent` with the buffer fix: the same dispatch, but the
    response is posted by `PostInChunks`, without padding, so every post
    has at most `MaxLines` lines.
  */
  method HandleMessageFixed(msg: Message, ctx: Context, roll: nat) returns (h: Handled)
    ensures FirstMatch(ctx.commands, msg.text).None? ==>
      && h.Handled? && h.posted == [] && h.store == ctx.store
      && h.fallback.Some? && h.fallback.value in NoMatchReplies
    ensures FirstMatch(ctx.commands, msg.text).Some? ==>
      var e := GetResponse(ctx.commands[FirstMatch(ctx.commands, msg.text).value], msg, ctx);
      && (h.ProcessDied? <==> e.response.Panic?)
      && (h.Handled? ==>
        && h.fallback.None?
        && h.store == e.store
        && (ResponseText(e.response) == "" ==> h.posted == [])
        && (ResponseText(e.response) != "" ==> Flatten(h.blocks) == Split(ResponseText(e.response), '\n')))
    ensures h.Handled? ==>
      && (forall k :: 0 <= k < |h.pads| ==> h.pads[k] == 0)
      && forall m :: m in h.posted ==> m != "" && |Split(m, '\n')| <= MaxLines
  {
    match FirstMatch(ctx.commands, msg.text)
    case None =>
      h := Handled([], [], [], Some(NoMatchReplies[roll % |NoMatchReplies|]), ctx.store);
    case Some(i) =>
      var e := GetResponse(ctx.commands[i], msg, ctx);
      if e.response.Panic? {
        h := ProcessDied;
      } else {
        var p := PostInChunks(ResponseText(e.response));
        h := Handled(p.posted, p.blocks, seq(|p.blocks|, _ => 0), None, e.store);
      }
  }
}

=== FILE: format.dfy ===
/**
  `format` (pull_request.go): the digest of the surviving records, grouped
  by repository, with a count and the oldest record. Go's map iteration
  order is unspecified, so the order of the groups is chosen by an abstract
  picker; every property is stated per group. The clock is the parameter
  `now` and the relative-time rendering is the abstract `humanize`.
*/
module Format {
  import opened Wrappers
  import opened Strings
  import opened Seqs
  import opened PullRequests

  /** Go's map iteration: given the keys not yet visited, which one comes next (taken modulo their number). */
  type KeyPicker = seq<string> -> nat

  /** One repository's group: its records in arrival order. */
  datatype Section = Section(repo: string, prs: seq<PullRequest>)

  /** What `format` gathers before it writes anything. */
  datatype Digest = Digest(sections: seq<Section>, count: nat, oldest: Option<PullRequest>)

  /**
    The result of `format`. `NilOldest` is the run in which the summary
    dereferences `oldest` while it is still nil (no record was updated
    strictly before `now`): the goroutine panics.
  */
  datatype Outcome = Rendered(text: string) | NilOldest

  /** The records of `prs` that belong to `repo`, in arrival order. */
  function Group(prs: seq<PullRequest>, repo: string): seq<PullRequest>
  {
    Select(prs, (p: PullRequest) => p.repository == repo)
  }

  /** The key set of the `grouped` map: each repository once, in first-arrival order. */
  function Repositories(prs: seq<PullRequest>): (keys: seq<string>)
    ensures Distinct(keys)
    ensures forall r :: r in keys <==> exists k :: 0 <= k < |prs| && prs[k].repository == r
    decreases |prs|
  {
    if |prs| == 0 then []
    else
      var init := Repositories(prs[..|prs| - 1]);
      assert forall k :: 0 <= k < |prs| - 1 ==> prs[..|prs| - 1][k] == prs[k];
      var r := prs[|prs| - 1].repository;
      if r in init then init else init + [r]
  }

  /** The visiting order of a map with the given keys: every key exactly once. */
  function IterationOrder(keys: seq<string>, pick: KeyPicker): (order: seq<string>)
    ensures |order| == |keys|
    ensures forall r :: r in order <==> r in keys
    ensures Distinct(keys) ==> Distinct(order)
    decreases |keys|
  {
    if |keys| == 0 then []
    else
      var i := pick(keys) % |keys|;
      var others := keys[..i] + keys[i + 1..];
      RemoveAt(keys, i);
      [keys[i]] + IterationOrder(others, pick)
  }

  /** Taking out the key at position `i` leaves the others, and keeps them distinct. */
  lemma RemoveAt(keys: seq<string>, i: nat)
    requires i < |keys|
    ensures var others := keys[..i] + keys[i + 1..];
      && |others| == |keys| - 1
      && (forall r :: r in keys <==> r == keys[i] || r in others)
      && (Distinct(keys) ==> Distinct(others) && keys[i] !in others)
  {
    var others := keys[..i] + keys[i + 1..];
    assert keys == keys[..i] + [keys[i]] + keys[i + 1..];
    if Distinct(keys) {
      forall a, b | 0 <= a < b < |others|
        ensures others[a] != others[b]
      {
        var a' := if a < i then a else a + 1;
        var b' := if b < i then b else b + 1;
        assert others[a] == keys[a'] && others[b] == keys[b'];
      }
      forall a | 0 <= a < |others|
        ensures others[a] != keys[i]
      {
        var a' := if a < i then a else a + 1;
        assert others[a] == keys[a'];
      }
    }
  }

  /** One section per key, in the order given. */
  function Sections(prs: seq<PullRequest>, order: seq<string>): (secs: seq<Section>)
    ensures |secs| == |order|
    ensures forall i :: 0 <= i < |order| ==> secs[i] == Section(order[i], Group(prs, order[i]))
    decreases |order|
  {
    if |order| == 0 then [] else [Section(order[0], Group(prs, order[0]))] + Sections(prs, order[1..])
  }

  /** The records of all sections, section after section. */
  function SectionRecords(secs: seq<Section>): seq<PullRequest>
  {
    if |secs| == 0 then [] else secs[0].prs + SectionRecords(secs[1..])
  }

  /**
    The record the scan of `format` ends up calling oldest: it is updated
    strictly before `now` and strictly before every earlier record, and no
    later record is strictly older, so on ties the first one seen wins.
    There is none iff no record is strictly older than `now`.
  */
  function OldestIndex(prs: seq<PullRequest>, now: int): (r: Option<nat>)
    ensures r.None? <==> forall j :: 0 <= j < |prs| ==> prs[j].updated >= now
    ensures r.Some? ==>
      && r.value < |prs|
      && prs[r.value].updated < now
      && (forall j :: 0 <= j < r.value ==> prs[j].updated > prs[r.value].updated)
      && (forall j :: r.value < j < |prs| ==> prs[j].updated >= prs[r.value].updated)
    decreases |prs|
  {
    if |prs| == 0 then None
    else
      var init := prs[..|prs| - 1];
      var o := OldestIndex(init, now);
      assert forall j :: 0 <= j < |init| ==> init[j] == prs[j];
      var bound := if o.Some? then prs[o.value].updated else now;
      if prs[|prs| - 1].updated < bound then Some(|prs| - 1) else o
  }

  /**
    The scan loop of `format` as written: `lastUpdated` starts at `now`, and
    a record strictly before it becomes the new oldest. It picks the same
    record as `OldestIndex`.
  */
  method ScanOldest(prs: seq<PullRequest>, now: int) returns (oldest: Option<nat>)
    ensures oldest == OldestIndex(prs, now)
  {
    oldest := None;
    var lastUpdated := now;
    var i := 0;
    while i < |prs|
      invariant 0 <= i <= |prs|
      invariant oldest == OldestIndex(prs[..i], now)
      invariant oldest.Some? ==> oldest.value < i && lastUpdated == prs[oldest.value].updated
      invariant oldest.None? ==> lastUpdated == now
    {
      assert prs[..i + 1][..i] == prs[..i];
      if prs[i].updated < lastUpdated {
        oldest := Some(i);
        lastUpdated := prs[i].updated;
      }
      i := i + 1;
    }
    assert prs[..i] == prs;
  }

  /** With distinct timestamps, the oldest is the record with the least timestamp. */
  lemma OldestIsMinimum(prs: seq<PullRequest>, now: int, k: nat)
    requires k < |prs| && prs[k].updated < now
    requires forall j :: 0 <= j < |prs| && j != k ==> prs[j].updated > prs[k].updated
    ensures OldestIndex(prs, now) == Some(k)
  {
  }

  /** The scan of `format` over the filtered records: count, groups and oldest. */
  function Collect(prs: seq<PullRequest>, now: int, pick: KeyPicker): (d: Digest)
    ensures d.count == |prs|
    ensures d.oldest.Some? <==> exists j :: 0 <= j < |prs| && prs[j].updated < now
    ensures d.oldest.Some? ==> d.oldest.value in prs
    ensures d.oldest == (match OldestIndex(prs, now) case Some(k) => Some(prs[k]) case None => None)
    ensures |d.sections| == |Repositories(prs)|
    ensures forall i, j :: 0 <= i < j < |d.sections| ==> d.sections[i].repo != d.sections[j].repo
    ensures forall i :: 0 <= i < |d.sections| ==> d.sections[i].prs == Group(prs, d.sections[i].repo)
    ensures forall i :: 0 <= i < |d.sections| ==> |d.sections[i].prs| > 0
    ensures forall p :: p in prs ==> exists i :: 0 <= i < |d.sections| && d.sections[i].repo == p.repository
  {
    var order := IterationOrder(Repositories(prs), pick);
    var secs := Sections(prs, order);
    SectionsCover(prs, order);
    var o := OldestIndex(prs, now);
    Digest(secs, |prs|, if o.Some? then Some(prs[o.value]) else None)
  }

  lemma SectionsCover(prs: seq<PullRequest>, order: seq<string>)
    requires forall r :: r in order <==> r in Repositories(prs)
    ensures forall i :: 0 <= i < |order| ==> |Sections(prs, order)[i].prs| > 0
    ensures forall p :: p in prs ==> exists i :: 0 <= i < |order| && Sections(prs, order)[i].repo == p.repository
  {
    var secs := Sections(prs, order);
    forall i | 0 <= i < |secs| ensures |secs[i].prs| > 0 {
      assert order[i] in Repositories(prs);
      var k :| 0 <= k < |prs| && prs[k].repository == order[i];
      assert prs[k] in multiset(prs);
      assert prs[k] in multiset(secs[i].prs);
    }
    forall p | p in prs ensures exists i :: 0 <= i < |order| && secs[i].repo == p.repository {
      var k :| 0 <= k < |prs| && prs[k] == p;
      assert p.repository in order;
      var i :| 0 <= i < |order| && order[i] == p.repository;
      assert secs[i].repo == p.repository;
    }
  }

  lemma {:induction false} SectionsCount(prs: seq<PullRequest>, order: seq<string>, x: PullRequest)
    requires Distinct(order)
    ensures multiset(SectionRecords(Sections(prs, order)))[x] == if x.repository in order then multiset(prs)[x] else 0
    decreases |order|
  {
    if |order| > 0 {
      var secs := Sections(prs, order);
      assert secs[1..] == Sections(prs, order[1..]);
      assert Distinct(order[1..]);
      SectionsCount(prs, order[1..], x);
      assert order[0] !in order[1..];
    }
  }

  /** Every record appears exactly once across the groups, under the group of its own repository. */
  lemma CollectPartitions(prs: seq<PullRequest>, now: int, pick: KeyPicker)
    ensures multiset(SectionRecords(Collect(prs, now, pick).sections)) == multiset(prs)
  {
    var order := IterationOrder(Repositories(prs), pick);
    forall x ensures multiset(SectionRecords(Sections(prs, order)))[x] == multiset(prs)[x] {
      SectionsCount(prs, order, x);
      if x in prs {
        var k :| 0 <= k < |prs| && prs[k] == x;
        assert x.repository in order;
      }
    }
  }

  /** `"%s\n"` over the records of a group. */
  function RecordLines(prs: seq<PullRequest>, humanize: Humanizer): string
  {
    if |prs| == 0 then "" else Display(prs[0], humanize) + "\n" + RecordLines(prs[1..], humanize)
  }

  /** A group: the `*repo*` header, one line per record, then a blank line. */
  function SectionText(s: Section, humanize: Humanizer): string
  {
    "*" + s.repo + "*" + "\n" + (RecordLines(s.prs, humanize) + "\n")
  }

  function SectionsText(secs: seq<Section>, humanize: Humanizer): string
  {
    if |secs| == 0 then "" else SectionText(secs[0], humanize) + SectionsText(secs[1..], humanize)
  }

  /** The summary sentence naming the count and the oldest record. */
  function SummaryLine(count: nat, oldest: PullRequest, humanize: Humanizer): (l: string)
    ensures '\n' !in oldest.webLink && '\n' !in humanize(oldest.updated) ==> '\n' !in l
  {
    ItoaNoBreak(count);
    ItoaNoBreak(oldest.id);
    assert '\n' !in "There are currently " && '\n' !in " open pull requests";
    assert '\n' !in " and the oldest (<" && '\n' !in "|PR #" && '\n' !in ">) was updated ";
    AbsentFromSummaryPieces("There are currently ", Itoa(count), " open pull requests", " and the oldest (<", oldest.webLink,
      "|PR #", Itoa(oldest.id), ">) was updated ", humanize(oldest.updated), '\n');
    "There are currently " + Itoa(count) + " open pull requests"
    + " and the oldest (<" + oldest.webLink + "|PR #" + Itoa(oldest.id) + ">) was updated " + humanize(oldest.updated)
  }

  /** The summary sentence is nine pieces put together: a character missing from every piece is missing from the sentence. */
  lemma AbsentFromSummaryPieces(a: string, b: string, c: string, d: string, e: string, f: string, g: string, h: string, i: string, ch: char)
    ensures ch !in a && ch !in b && ch !in c && ch !in d && ch !in e && ch !in f && ch !in g && ch !in h && ch !in i ==>
      ch !in a + b + c + d + e + f + g + h + i
  {
    AbsentAppend(a, b, ch);
    AbsentAppend(a + b, c, ch);
    AbsentAppend(a + b + c, d, ch);
    AbsentAppend(a + b + c + d, e, ch);
    AbsentAppend(a + b + c + d + e, f, ch);
    AbsentAppend(a + b + c + d + e + f, g, ch);
    AbsentAppend(a + b + c + d + e + f + g, h, ch);
    AbsentAppend(a + b + c + d + e + f + g + h, i, ch);
  }

  /** The writes of `format` into its buffer: the groups, then the summary when there is a record. */
  function Render(d: Digest, humanize: Humanizer): (r: Outcome)
    ensures r.NilOldest? <==> d.count > 0 && d.oldest.None?
  {
    if d.count == 0 then Rendered(SectionsText(d.sections, humanize))
    else if d.oldest.None? then NilOldest
    else Rendered(SectionsText(d.sections, humanize) + "\n" + SummaryLine(d.count, d.oldest.value, humanize) + "\n")
  }

  /** A digest with records ends with its summary line. */
  lemma SummaryAtEnd(d: Digest, humanize: Humanizer)
    ensures d.count > 0 && d.oldest.Some? ==>
      && Render(d, humanize).Rendered?
      && HasSuffix(Render(d, humanize).text, "\n" + SummaryLine(d.count, d.oldest.value, humanize) + "\n")
  {
    if d.count > 0 && d.oldest.Some? {
      EndsWithLast3(SectionsText(d.sections, humanize), "\n", SummaryLine(d.count, d.oldest.value, humanize), "\n");
    }
  }

  /** `format(prs)` with the clock reading `now`. */
  function FormatRecords(prs: seq<PullRequest>, now: int, pick: KeyPicker, humanize: Humanizer): (r: Outcome)
    ensures r.NilOldest? <==> |prs| > 0 && forall j :: 0 <= j < |prs| ==> prs[j].updated >= now
    ensures |prs| == 0 ==> r == Rendered("")
    ensures |prs| > 0 && OldestIndex(prs, now).Some? ==>
      r.Rendered? && HasSuffix(r.text, "\n" + SummaryLine(|prs|, prs[OldestIndex(prs, now).value], humanize) + "\n")
  {
    var d := Collect(prs, now, pick);
    assert |prs| == 0 ==> d.sections == [];
    SummaryAtEnd(d, humanize);
    Render(d, humanize)
  }

  /** Each line followed by a line break. */
  function Unlines(ls: seq<string>): string
  {
    if |ls| == 0 then "" else ls[0] + "\n" + Unlines(ls[1..])
  }

  /** The lines of a group: header, one line per record, blank line. */
  function SectionLines(s: Section, humanize: Humanizer): seq<string>
  {
    ["*" + s.repo + "*"] + (DisplayLines(s.prs, humanize) + [""])
  }

  function DisplayLines(prs: seq<PullRequest>, humanize: Humanizer): (ls: seq<string>)
    ensures |ls| == |prs|
    ensures forall i :: 0 <= i < |prs| ==> ls[i] == Display(prs[i], humanize)
  {
    if |prs| == 0 then [] else [Display(prs[0], humanize)] + DisplayLines(prs[1..], humanize)
  }

  /** The lines of a digest: all groups, then a blank line and the summary when there is a record. */
  function DigestLines(d: Digest, humanize: Humanizer): seq<string>
    requires d.count > 0 ==> d.oldest.Some?
  {
    Flatten(SectionsLines(d.sections, humanize))
    + (if d.count > 0 then ["", SummaryLine(d.count, d.oldest.value, humanize)] else [])
  }

  function SectionsLines(secs: seq<Section>, humanize: Humanizer): (lss: seq<seq<string>>)
    ensures |lss| == |secs|
    ensures forall i :: 0 <= i < |secs| ==> lss[i] == SectionLines(secs[i], humanize)
  {
    if |secs| == 0 then [] else [SectionLines(secs[0], humanize)] + SectionsLines(secs[1..], humanize)
  }

  lemma {:induction false} UnlinesAppend(a: seq<string>, b: seq<string>)
    ensures Unlines(a + b) == Unlines(a) + Unlines(b)
    decreases |a|
  {
    if |a| == 0 {
      assert a + b == b;
    } else {
      assert (a + b)[1..] == a[1..] + b;
      UnlinesAppend(a[1..], b);
    }
  }

  lemma {:induction false} RecordLinesAreUnlines(prs: seq<PullRequest>, humanize: Humanizer)
    ensures RecordLines(prs, humanize) == Unlines(DisplayLines(prs, humanize))
    decreases |prs|
  {
    if |prs| > 0 {
      RecordLinesAreUnlines(prs[1..], humanize);
    }
  }

  lemma SectionTextIsUnlines(s: Section, humanize: Humanizer)
    ensures SectionText(s, humanize) == Unlines(SectionLines(s, humanize))
  {
    RecordLinesAreUnlines(s.prs, humanize);
    FramedUnlines("*" + s.repo + "*", DisplayLines(s.prs, humanize));
  }

  /** A header line, some lines, and a closing blank line. */
  lemma FramedUnlines(header: string, ls: seq<string>)
    ensures Unlines([header] + (ls + [""])) == header + "\n" + (Unlines(ls) + "\n")
  {
    UnlinesAppend(ls, [""]);
    UnlinesCons("", []);
    UnlinesCons(header, ls + [""]);
  }

  lemma UnlinesCons(x: string, rest: seq<string>)
    ensures Unlines([x] + rest) == x + "\n" + Unlines(rest)
  {
    assert ([x] + rest)[1..] == rest;
  }

  lemma {:induction false} SectionsTextAreUnlines(secs: seq<Section>, humanize: Humanizer)
    ensures SectionsText(secs, humanize) == Unlines(Flatten(SectionsLines(secs, humanize)))
    decreases |secs|
  {
    if |secs| > 0 {
      var lss := SectionsLines(secs, humanize);
      assert lss[1..] == SectionsLines(secs[1..], humanize);
      SectionsTextAreUnlines(secs[1..], humanize);
      SectionTextIsUnlines(secs[0], humanize);
      UnlinesAppend(lss[0], Flatten(lss[1..]));
    }
  }

  lemma UnlinesPair(a: string, b: string)
    ensures Unlines([a, b]) == a + "\n" + b + "\n"
  {
    assert [a, b][1..] == [b];
    assert Unlines([b]) == b + "\n" + Unlines([]);
  }

  /** The rendered text is exactly the digest's lines, each ended by a line break. */
  lemma RenderIsUnlines(d: Digest, humanize: Humanizer)
    requires d.count > 0 ==> d.oldest.Some?
    ensures Render(d, humanize) == Rendered(Unlines(DigestLines(d, humanize)))
  {
    var body := Flatten(SectionsLines(d.sections, humanize));
    var text := SectionsText(d.sections, humanize);
    SectionsTextAreUnlines(d.sections, humanize);
    if d.count > 0 {
      var summary := SummaryLine(d.count, d.oldest.value, humanize);
      assert DigestLines(d, humanize) == body + ["", summary];
      assert Render(d, humanize) == Rendered(text + "\n" + summary + "\n");
      UnlinesTail(body, summary);
    } else {
      assert DigestLines(d, humanize) == body + [];
      assert body + [] == body;
    }
  }

  lemma UnlinesTail(body: seq<string>, summary: string)
    ensures Unlines(body + ["", summary]) == Unlines(body) + "\n" + summary + "\n"
  {
    UnlinesAppend(body, ["", summary]);
    UnlinesPair("", summary);
  }

  lemma {:induction false} UnlinesIsJoin(ls: seq<string>)
    ensures Unlines(ls) == Join(ls + [""], '\n')
    decreases |ls|
  {
    if |ls| > 0 {
      UnlinesIsJoin(ls[1..]);
      assert (ls + [""])[1..] == ls[1..] + [""];
    }
  }

  /** Splitting `Unlines(ls)` at line breaks gives back `ls` and a final empty piece, when no line holds a break. */
  lemma UnlinesSplit(ls: seq<string>)
    requires forall i :: 0 <= i < |ls| ==> '\n' !in ls[i]
    ensures Split(Unlines(ls), '\n') == ls + [""]
  {
    UnlinesIsJoin(ls);
    SplitJoin(ls + [""], '\n');
  }
}

=== FILE: github.dfy ===
/**
  `trawlGitHub` (github.go): wildcard expansion of the watched specifiers,
  the per-repository page loop and the normalisation of provider records.
  The GitHub client is an abstract `Api`; the per-repository goroutines
  are modelled as independent streams combined by `Merge.MergeAll`.
*/
module GitHub {
  import opened Wrappers
  import opened Strings
  import opened Seqs
  import opened PullRequests
  import opened Configuration
  import Merge

  /** The request options the page loop sends. */
  datatype ListOptions = ListOptions(state: string, sort: string, direction: string, page: int)

  datatype GitHubUser = GitHubUser(login: string)

  /** A pull request as the provider returns it; only the assignee may be absent. */
  datatype GitHubPull = GitHubPull(
    number: int,
    user: GitHubUser,
    updatedAt: int,
    htmlURL: string,
    title: string,
    assignee: Option<GitHubUser>)

  /** One page of results; `lastPage` is 0 when there are no further pages. */
  datatype PageResponse = PageResponse(pulls: seq<GitHubPull>, lastPage: int)

  /**
    The provider: `Repositories.List(owner, nil)` returns the names of the
    owner's repositories, `PullRequests.List(owner, name, options)` one page
    of pull requests; either may fail.
  */
  datatype Api = Api(
    listRepos: string -> Result<seq<string>, string>,
    listPulls: (string, string, ListOptions) -> Result<PageResponse, string>)

  /** Expansion of one watched specifier into concrete `owner/name` repositories. */
  function ExpandSpecifier(spec: string, api: Api): (repos: seq<string>)
    ensures Count(spec, '/') != 1 ==> repos == []
    ensures Count(spec, '/') == 1 && Split(spec, '/')[1] != "*" ==> repos == [spec]
    ensures Count(spec, '/') == 1 && Split(spec, '/')[1] == "*" ==>
      var owner := Split(spec, '/')[0];
      match api.listRepos(owner)
      case Failure(_) => repos == []
      case Success(names) => |repos| == |names| && forall k :: 0 <= k < |names| ==> repos[k] == owner + "/" + names[k]
    ensures forall k :: 0 <= k < |repos| ==> Count(repos[k], '/') >= 1
  {
    var parts := Split(spec, '/');
    if |parts| != 2 then []
    else if parts[1] != "*" then [spec]
    else match api.listRepos(parts[0])
      case Failure(_) => []
      case Success(names) => Qualify(parts[0], names)
  }

  /** `owner/<name>` for every listed name, in listing order. */
  function Qualify(owner: string, names: seq<string>): (repos: seq<string>)
    requires '/' !in owner
    ensures |repos| == |names|
    ensures forall k :: 0 <= k < |names| ==> repos[k] == owner + "/" + names[k]
    ensures forall k :: 0 <= k < |repos| ==> Count(repos[k], '/') >= 1
    decreases |names|
  {
    if |names| == 0 then []
    else
      CountZero(owner, '/');
      CountAppend(owner, "/", '/');
      CountAppend(owner + "/", names[0], '/');
      [owner + "/" + names[0]] + Qualify(owner, names[1..])
  }

  /** The expansion loop over the watch list: specifiers are handled one by one, in order. */
  function ExpandSpecifiers(specs: seq<string>, api: Api): (repos: seq<string>)
    ensures forall k :: 0 <= k < |repos| ==> Count(repos[k], '/') >= 1
    decreases |specs|
  {
    if |specs| == 0 then [] else ExpandSpecifier(specs[0], api) + ExpandSpecifiers(specs[1..], api)
  }

  /** Each specifier's expansion is independent of the others: a skipped one removes only itself. */
  lemma {:induction false} ExpandAppend(a: seq<string>, b: seq<string>, api: Api)
    ensures ExpandSpecifiers(a + b, api) == ExpandSpecifiers(a, api) + ExpandSpecifiers(b, api)
    decreases |a|
  {
    if |a| == 0 {
      assert a + b == b;
    } else {
      assert (a + b)[1..] == a[1..] + b;
      ExpandAppend(a[1..], b, api);
    }
  }

  /** A list of explicit `owner/name` specifiers is kept as it is, in order. */
  lemma {:induction false} ExpandExplicit(specs: seq<string>, api: Api)
    requires forall k :: 0 <= k < |specs| ==> Count(specs[k], '/') == 1 && Split(specs[k], '/')[1] != "*"
    ensures ExpandSpecifiers(specs, api) == specs
    decreases |specs|
  {
    if |specs| > 0 {
      ExpandExplicit(specs[1..], api);
    }
  }

  /** The options of every request: open pull requests, most recently updated first, at the given page. */
  function Options(page: int): ListOptions
  {
    ListOptions("open", "updated", "desc", page)
  }

  /** The provider-neutral record built from a provider record of repository `owner/name`. */
  function Normalize(owner: string, name: string, pr: GitHubPull): (p: PullRequest)
    ensures p.repository == owner + "/" + name
    ensures pr.assignee.None? ==> p.assignee == ""
    ensures pr.assignee.Some? ==> p.assignee == pr.assignee.value.login
  {
    PullRequest(
      id := pr.number,
      author := pr.user.login,
      assignee := if pr.assignee.Some? then pr.assignee.value.login else "",
      updated := pr.updatedAt,
      webLink := pr.htmlURL,
      title := pr.title,
      repository := owner + "/" + name)
  }

  function NormalizeAll(owner: string, name: string, pulls: seq<GitHubPull>): (prs: seq<PullRequest>)
    ensures |prs| == |pulls|
    ensures forall k :: 0 <= k < |pulls| ==> prs[k] == Normalize(owner, name, pulls[k])
    decreases |pulls|
  {
    if |pulls| == 0 then [] else [Normalize(owner, name, pulls[0])] + NormalizeAll(owner, name, pulls[1..])
  }

  /** The records the provider handed back for a sequence of requests; a failed request gives none. */
  function Received(owner: string, name: string, api: Api, requests: seq<ListOptions>): seq<PullRequest>
    decreases |requests|
  {
    if |requests| == 0 then []
    else
      (match api.listPulls(owner, name, requests[0])
       case Success(resp) => NormalizeAll(owner, name, resp.pulls)
       case Failure(_) => [])
      + Received(owner, name, api, requests[1..])
  }

  /** Why one repository's page loop stopped. */
  datatype Stop = LastPageReached | FetchFailed(error: string) | BudgetSpent

  /** One repository's contribution: its records, the requests that were sent, and why it stopped. */
  datatype Fetch = Fetch(records: seq<PullRequest>, requests: seq<ListOptions>, stop: Stop)

  /**
    The page loop from page `page` on, with room for at most `budget`
    requests: ask for one page; stop on a failure or on a response with
    `lastPage == 0`; otherwise go on with the next page.
  */
  function PageLoop(owner: string, name: string, api: Api, page: int, budget: nat): (f: Fetch)
    ensures |f.requests| <= budget
    ensures f.stop.BudgetSpent? ==> |f.requests| == budget
    decreases budget
  {
    if budget == 0 then Fetch([], [], BudgetSpent)
    else
      var request := Options(page);
      match api.listPulls(owner, name, request)
      case Failure(e) => Fetch([], [request], FetchFailed(e))
      case Success(resp) =>
        var recs := NormalizeAll(owner, name, resp.pulls);
        if resp.lastPage == 0 then Fetch(recs, [request], LastPageReached)
        else Prefixed(recs, [request], PageLoop(owner, name, api, page + 1, budget - 1))
  }

  /** The records and requests of earlier pages in front of those of a later part of the loop. */
  function Prefixed(records: seq<PullRequest>, requests: seq<ListOptions>, rest: Fetch): Fetch
  {
    Fetch(records + rest.records, requests + rest.requests, rest.stop)
  }

  lemma PrefixedTwice(r1: seq<PullRequest>, q1: seq<ListOptions>, r2: seq<PullRequest>, q2: seq<ListOptions>, rest: Fetch)
    ensures Prefixed(r1, q1, Prefixed(r2, q2, rest)) == Prefixed(r1 + r2, q1 + q2, rest)
  {
    assert r1 + (r2 + rest.records) == (r1 + r2) + rest.records;
    assert q1 + (q2 + rest.requests) == (q1 + q2) + rest.requests;
  }

  /** The provider answered `request` with a page that has a further page after it. */
  predicate Continued(owner: string, name: string, api: Api, request: ListOptions)
  {
    api.listPulls(owner, name, request).Success? && api.listPulls(owner, name, request).value.lastPage != 0
  }

  /** Requests for consecutive pages, starting at `page`. */
  predicate InOrder(requests: seq<ListOptions>, page: int)
  {
    forall k :: 0 <= k < |requests| ==> requests[k] == Options(page + k)
  }

  /** The first `n` requests were each answered with a further page. */
  predicate ContinuedBefore(owner: string, name: string, api: Api, requests: seq<ListOptions>, n: int)
  {
    forall k :: 0 <= k < |requests| && k < n ==> Continued(owner, name, api, requests[k])
  }

  /** The stop reason agrees with the number of requests and the last response. */
  predicate StopAgrees(owner: string, name: string, api: Api, budget: nat, f: Fetch)
  {
    match f.stop
    case BudgetSpent => |f.requests| == budget && ContinuedBefore(owner, name, api, f.requests, |f.requests|)
    case LastPageReached =>
      && |f.requests| > 0
      && api.listPulls(owner, name, f.requests[|f.requests| - 1]).Success?
      && api.listPulls(owner, name, f.requests[|f.requests| - 1]).value.lastPage == 0
    case FetchFailed(e) =>
      |f.requests| > 0 && api.listPulls(owner, name, f.requests[|f.requests| - 1]) == Failure(e)
  }

  /**
    What a run of the page loop promises: pages are asked for in
    consecutive order, at most `budget` of them; the records are those of
    the answered pages, tagged with the repository; every page but the last
    one answered with a further page; and the stop reason agrees with the
    last response.
  */
  predicate PagePromise(owner: string, name: string, api: Api, page: int, budget: nat, f: Fetch)
  {
    && |f.requests| <= budget
    && InOrder(f.requests, page)
    && f.records == Received(owner, name, api, f.requests)
    && (forall p :: p in f.records ==> p.repository == owner + "/" + name)
    && ContinuedBefore(owner, name, api, f.requests, |f.requests| - 1)
    && StopAgrees(owner, name, api, budget, f)
  }

  lemma {:induction false} PageLoopKeepsPromise(owner: string, name: string, api: Api, page: int, budget: nat)
    ensures PagePromise(owner, name, api, page, budget, PageLoop(owner, name, api, page, budget))
    decreases budget
  {
    if budget > 0 {
      var request := Options(page);
      match api.listPulls(owner, name, request)
      case Failure(e) =>
      case Success(resp) =>
        if resp.lastPage != 0 {
          PageLoopKeepsPromise(owner, name, api, page + 1, budget - 1);
          PromiseCons(owner, name, api, page, budget, PageLoop(owner, name, api, page + 1, budget - 1));
        }
    }
  }

  /** A page that announced a further page, in front of a run that keeps the promise from the next page on. */
  lemma PromiseCons(owner: string, name: string, api: Api, page: int, budget: nat, rest: Fetch)
    requires budget > 0 && Continued(owner, name, api, Options(page))
    requires PagePromise(owner, name, api, page + 1, budget - 1, rest)
    ensures var recs := NormalizeAll(owner, name, api.listPulls(owner, name, Options(page)).value.pulls);
      PagePromise(owner, name, api, page, budget, Prefixed(recs, [Options(page)], rest))
  {
    var request := Options(page);
    var recs := NormalizeAll(owner, name, api.listPulls(owner, name, request).value.pulls);
    var f := Prefixed(recs, [request], rest);
    assert f.requests[0] == request && f.requests[1..] == rest.requests;
    assert f.records == Received(owner, name, api, f.requests);
    forall p | p in f.records
      ensures p.repository == owner + "/" + name
    {
      if p !in recs {
        assert p in rest.records;
      }
    }
    forall k | 0 <= k < |f.requests|
      ensures f.requests[k] == Options(page + k)
      ensures k < |f.requests| - 1 ==> Continued(owner, name, api, f.requests[k])
      ensures f.stop.BudgetSpent? ==> Continued(owner, name, api, f.requests[k])
    {
      if k > 0 {
        assert f.requests[k] == rest.requests[k - 1];
      }
    }
    assert InOrder(f.requests, page);
    assert ContinuedBefore(owner, name, api, f.requests, |f.requests| - 1);
    if f.stop.LastPageReached? || f.stop.FetchFailed? {
      assert f.requests[|f.requests| - 1] == rest.requests[|rest.requests| - 1];
    }
    assert StopAgrees(owner, name, api, budget, f);
  }

  /** The page loop of one repository, starting at `page`, together with what it promises. */
  function FetchPages(owner: string, name: string, api: Api, page: int, budget: nat): (f: Fetch)
    ensures PagePromise(owner, name, api, page, budget, f)
  {
    PageLoopKeepsPromise(owner, name, api, page, budget);
    PageLoop(owner, name, api, page, budget)
  }

  /**
    The `for` loop of the fetch goroutine as written, starting at page 1:
    it sends the same requests, keeps the same records and stops for the
    same reason as `FetchPages`.
  */
  method FetchLoop(owner: string, name: string, api: Api, budget: nat) returns (f: Fetch)
    ensures f == FetchPages(owner, name, api, 1, budget)
  {
    var records: seq<PullRequest> := [];
    var requests: seq<ListOptions> := [];
    var nextPage := 1;
    var left: nat := budget;
    assert Prefixed(records, requests, PageLoop(owner, name, api, nextPage, left)) == PageLoop(owner, name, api, 1, budget);
    while true
      invariant left <= budget && nextPage == 1 + (budget - left)
      invariant Prefixed(records, requests, PageLoop(owner, name, api, nextPage, left)) == PageLoop(owner, name, api, 1, budget)
      decreases left
    {
      if left == 0 {
        f := Prefixed(records, requests, Fetch([], [], BudgetSpent));
        return;
      }
      var request := Options(nextPage);
      var result := api.listPulls(owner, name, request);
      if result.Failure? {
        f := Prefixed(records, requests, Fetch([], [request], FetchFailed(result.error)));
        return;
      }
      var recs := NormalizeAll(owner, name, result.value.pulls);
      if result.value.lastPage == 0 {
        f := Prefixed(records, requests, Fetch(recs, [request], LastPageReached));
        return;
      }
      PrefixedTwice(records, requests, recs, [request], PageLoop(owner, name, api, nextPage + 1, left - 1));
      records := records + recs;
      requests := requests + [request];
      nextPage := nextPage + 1;
      left := left - 1;
    }
  }

  /** The repository key a fetch tags its records with: the first two parts of the name. */
  function RepoKey(repoName: string): (key: string)
    requires Count(repoName, '/') >= 1
    ensures Count(repoName, '/') == 1 ==> key == repoName
  {
    var parts := Split(repoName, '/');
    assert Count(repoName, '/') == 1 ==> Join(parts, '/') == parts[0] + "/" + parts[1];
    parts[0] + "/" + parts[1]
  }

  /** The goroutine for one repository: split the name, then run the page loop from page 1. */
  function FetchRepo(repoName: string, api: Api, budget: nat): (f: Fetch)
    requires Count(repoName, '/') >= 1
    ensures forall p :: p in f.records ==> p.repository == RepoKey(repoName)
    ensures forall k :: 0 <= k < |f.requests| ==> f.requests[k] == Options(1 + k)
  {
    var parts := Split(repoName, '/');
    FetchPages(parts[0], parts[1], api, 1, budget)
  }

  /** One stream per expanded repository, in expansion order. */
  function Streams(repos: seq<string>, api: Api, budget: nat): (ss: seq<seq<PullRequest>>)
    requires forall k :: 0 <= k < |repos| ==> Count(repos[k], '/') >= 1
    ensures |ss| == |repos|
    ensures forall k :: 0 <= k < |repos| ==> ss[k] == FetchRepo(repos[k], api, budget).records
    decreases |repos|
  {
    if |repos| == 0 then [] else [FetchRepo(repos[0], api, budget).records] + Streams(repos[1..], api, budget)
  }

  /**
    `trawlGitHub`: the streams of all expanded repositories, interleaved by
    the scheduler. Each repository's records arrive in its own page order,
    and every record is tagged with a watched repository.
  */
  function TrawlGitHub(w: WatchList, api: Api, budget: nat, choose: Merge.Scheduler<PullRequest>): (m: Merge.Merged<PullRequest>)
    ensures var repos := ExpandSpecifiers(w.repositories, api);
      && |m.out| == |m.origin|
      && (forall k :: 0 <= k < |m.origin| ==> m.origin[k] < |repos|)
      && (forall i :: 0 <= i < |repos| ==> Merge.Pick(m.out, m.origin, i) == FetchRepo(repos[i], api, budget).records)
      && (forall k :: 0 <= k < |m.out| ==> m.out[k].repository == RepoKey(repos[m.origin[k]]))
  {
    var repos := ExpandSpecifiers(w.repositories, api);
    var m := Merge.MergeAll(Streams(repos, api, budget), choose);
    forall k | 0 <= k < |m.out| ensures m.out[k].repository == RepoKey(repos[m.origin[k]]) {
      PickContains(m.out, m.origin, k);
    }
    m
  }

  /** A watch list whose specifiers all expand to nothing yields no records. */
  lemma TrawlNothing(w: WatchList, api: Api, budget: nat, choose: Merge.Scheduler<PullRequest>)
    requires ExpandSpecifiers(w.repositories, api) == []
    ensures TrawlGitHub(w, api, budget, choose).out == []
  {
    assert Streams([], api, budget) == [];
  }

  lemma {:induction false} PickContains<T>(out: seq<T>, origin: seq<nat>, k: nat)
    requires |out| == |origin| && k < |out|
    ensures out[k] in Merge.Pick(out, origin, origin[k])
    decreases k
  {
    if k > 0 {
      PickContains(out[1..], origin[1..], k - 1);
    }
  }
}

=== FILE: merge.dfy ===
/**
  `merge` (pull_request.go): the fan-in of several record streams into one.
  The goroutines and the wait group are replaced by a sequential model:
  an abstract scheduler picks, at every step, which input delivers its next
  record, and the merge ends once every input is exhausted. The result
  carries, next to the merged stream, the input each element came from.
*/
module Merge {
  import Seqs

  /** The Go scheduler: given what is left of every input, which one delivers next (a bad choice is corrected). */
  type Scheduler<!T> = seq<seq<T>> -> nat

  /** The merged stream together with the index of the input each element was taken from. */
  datatype Merged<T> = Merged(out: seq<T>, origin: seq<nat>)

  function TotalLength<T>(ins: seq<seq<T>>): nat
  {
    |Seqs.Flatten(ins)|
  }

  /** The elements of `out` that were taken from input `i`, in output order. */
  function Pick<T>(out: seq<T>, origin: seq<nat>, i: nat): seq<T>
    requires |out| == |origin|
  {
    if |out| == 0 then []
    else (if origin[0] == i then [out[0]] else []) + Pick(out[1..], origin[1..], i)
  }

  /** The input that delivers next: the scheduler's choice if it still has records, else the first input that does. */
  function NextSource<T>(ins: seq<seq<T>>, choose: Scheduler<T>): (i: nat)
    requires TotalLength(ins) > 0
    ensures i < |ins| && |ins[i]| > 0
  {
    var c := choose(ins);
    if c < |ins| && |ins[c]| > 0 then c
    else FirstNonEmpty(ins)
  }

  /** Index of the first input that still has records. */
  function FirstNonEmpty<T>(ins: seq<seq<T>>): (i: nat)
    requires TotalLength(ins) > 0
    ensures i < |ins| && |ins[i]| > 0
    ensures forall j :: 0 <= j < i ==> |ins[j]| == 0
    decreases |ins|
  {
    if |ins[0]| > 0 then 0
    else
      assert Seqs.Flatten(ins) == Seqs.Flatten(ins[1..]);
      1 + FirstNonEmpty(ins[1..])
  }

  lemma {:induction false} DropHeadLength<T>(ins: seq<seq<T>>, i: nat)
    requires i < |ins| && |ins[i]| > 0
    ensures TotalLength(ins[i := ins[i][1..]]) + 1 == TotalLength(ins)
    decreases i
  {
    var u := ins[i := ins[i][1..]];
    if i > 0 {
      assert u[1..] == ins[1..][i - 1 := ins[i][1..]];
      DropHeadLength(ins[1..], i - 1);
    }
  }

  /**
    The fan-in: every record of every input appears in the output exactly
    once, and the records taken from each input appear in that input's
    order. The output is complete only when all inputs are exhausted.
  */
  function MergeAll<T>(ins: seq<seq<T>>, choose: Scheduler<T>): (m: Merged<T>)
    ensures |m.out| == |m.origin| == TotalLength(ins)
    ensures forall k :: 0 <= k < |m.origin| ==> m.origin[k] < |ins|
    ensures forall i :: 0 <= i < |ins| ==> Pick(m.out, m.origin, i) == ins[i]
    decreases TotalLength(ins)
  {
    if TotalLength(ins) == 0 then
      assert forall i :: 0 <= i < |ins| ==> ins[i] == [] by {
        forall i | 0 <= i < |ins| ensures ins[i] == [] {
          if ins[i] != [] {
            DropHeadLength(ins, i);
          }
        }
      }
      Merged([], [])
    else
      var i := NextSource(ins, choose);
      var rest_ins := ins[i := ins[i][1..]];
      DropHeadLength(ins, i);
      var rest := MergeAll(rest_ins, choose);
      var m := Merged([ins[i][0]] + rest.out, [i] + rest.origin);
      assert m.out[1..] == rest.out && m.origin[1..] == rest.origin;
      assert ins[i] == [ins[i][0]] + ins[i][1..];
      m
  }

  lemma {:induction false} DropHeadMultiset<T>(ins: seq<seq<T>>, i: nat)
    requires i < |ins| && |ins[i]| > 0
    ensures multiset(Seqs.Flatten(ins[i := ins[i][1..]])) + multiset{ins[i][0]} == multiset(Seqs.Flatten(ins))
    decreases i
  {
    var u := ins[i := ins[i][1..]];
    if i > 0 {
      assert u[1..] == ins[1..][i - 1 := ins[i][1..]];
      DropHeadMultiset(ins[1..], i - 1);
    } else {
      assert ins[0] == [ins[0][0]] + ins[0][1..];
    }
  }

  /** Nothing is lost or duplicated: the output holds exactly the records of all inputs together. */
  lemma {:induction false} MergeIsPermutation<T>(ins: seq<seq<T>>, choose: Scheduler<T>)
    ensures multiset(MergeAll(ins, choose).out) == multiset(Seqs.Flatten(ins))
    decreases TotalLength(ins)
  {
    if TotalLength(ins) > 0 {
      var i := NextSource(ins, choose);
      DropHeadLength(ins, i);
      DropHeadMultiset(ins, i);
      MergeIsPermutation(ins[i := ins[i][1..]], choose);
    }
  }

  lemma {:induction false} PickAll<T>(out: seq<T>, origin: seq<nat>, i: nat)
    requires |out| == |origin|
    requires forall k :: 0 <= k < |origin| ==> origin[k] == i
    ensures Pick(out, origin, i) == out
    decreases |out|
  {
    if |out| > 0 {
      PickAll(out[1..], origin[1..], i);
    }
  }

  /** Merging a single stream, as the show command does, returns that stream unchanged. */
  lemma MergeSingle<T>(s: seq<T>, choose: Scheduler<T>)
    ensures MergeAll([s], choose).out == s
  {
    var m := MergeAll([s], choose);
    PickAll(m.out, m.origin, 0);
  }
}

=== FILE: pull_request.dfy ===
/**
  The provider-neutral pull-request record (pull_request.go): its two
  predicates, its one-line display form and the filter stage of the
  pipeline.
*/
module PullRequests {
  import opened Strings
  import Seqs
  import opened Configuration

  /** `PullRequest`; the timestamp `updated` is an abstract instant (larger is later). */
  datatype PullRequest = PullRequest(
    id: int,
    author: string,
    assignee: string,
    updated: int,
    webLink: string,
    title: string,
    repository: string)

  /** `humanize.Time`: the relative rendering of an instant ("3 hours ago"); it reads the clock, so it is left abstract. */
  type Humanizer = int -> string

  const WipBracket := "[WIP]"
  const WipColon := "WIP:"

  /** `isWIP`: the title carries one of the two case-sensitive markers, anywhere. */
  function IsWIP(p: PullRequest): (b: bool)
    ensures b <==> (exists i :: OccursAt(p.title, WipBracket, i)) || (exists i :: OccursAt(p.title, WipColon, i))
  {
    Contains(p.title, WipBracket) || Contains(p.title, WipColon)
  }

  /** Either marker anywhere in the title makes a record WIP, whatever surrounds it. */
  lemma WipMarkerAnywhere(p: PullRequest, before: string, after: string)
    requires p.title == before + WipColon + after || p.title == before + WipBracket + after
    ensures IsWIP(p)
  {
    if p.title == before + WipColon + after {
      assert p.title[|before|..|before| + |WipColon|] == WipColon;
      assert OccursAt(p.title, WipColon, |before|);
    } else {
      assert p.title[|before|..|before| + |WipBracket|] == WipBracket;
      assert OccursAt(p.title, WipBracket, |before|);
    }
  }

  /** The markers are matched exactly: a title with no 'W' is never WIP, so "[wip]" and "wip:" do not count. */
  lemma NoCapitalWNotWIP(p: PullRequest)
    requires 'W' !in p.title
    ensures !IsWIP(p)
  {
    forall i ensures !OccursAt(p.title, WipBracket, i) {
      if 0 <= i && i + |WipBracket| <= |p.title| {
        assert p.title[i..i + |WipBracket|][1] == p.title[i + 1] != 'W';
      }
    }
    forall i ensures !OccursAt(p.title, WipColon, i) {
      if 0 <= i && i + |WipColon| <= |p.title| {
        assert p.title[i..i + |WipColon|][0] == p.title[i] != 'W';
      }
    }
  }

  /** Some listed user is the author or the assignee. */
  function AnyListed(users: seq<string>, p: PullRequest): (b: bool)
    ensures b <==> exists k :: 0 <= k < |users| && (users[k] == p.author || users[k] == p.assignee)
    decreases |users|
  {
    if |users| == 0 then false
    else if users[0] == p.author || users[0] == p.assignee then true
    else
      var b := AnyListed(users[1..], p);
      assert forall k :: 0 < k < |users| ==> users[k] == users[1..][k - 1];
      b
  }

  /**
    `isWhiteListed`: an empty whitelist admits everyone; otherwise the
    author or the assignee must be listed. An unassigned record has
    assignee "", so a whitelist entry "" admits every unassigned record.
  */
  function IsWhiteListed(p: PullRequest, w: WatchList): (b: bool)
    ensures |w.userWhiteList| == 0 ==> b
    ensures |w.userWhiteList| > 0 ==> (b <==> p.author in w.userWhiteList || p.assignee in w.userWhiteList)
  {
    |w.userWhiteList| == 0 || AnyListed(w.userWhiteList, p)
  }

  /** The filter's test: not WIP and whitelisted. */
  predicate Keep(w: WatchList, p: PullRequest)
  {
    !IsWIP(p) && IsWhiteListed(p, w)
  }

  /**
    `filter`: exactly the records that are not WIP and are whitelisted,
    each as often as it arrived, in arrival order.
  */
  function Filter(w: WatchList, prs: seq<PullRequest>): (r: seq<PullRequest>)
    ensures Seqs.IsSubsequence(r, prs)
    ensures forall p :: p in r ==> !IsWIP(p) && IsWhiteListed(p, w)
    ensures forall p :: multiset(r)[p] == if Keep(w, p) then multiset(prs)[p] else 0
  {
    Seqs.Select(prs, p => Keep(w, p))
  }

  /** A WIP record never survives, and with a whitelist neither does one whose author and assignee are both unlisted. */
  lemma FilterDrops(w: WatchList, prs: seq<PullRequest>, p: PullRequest)
    requires IsWIP(p) || (|w.userWhiteList| > 0 && p.author !in w.userWhiteList && p.assignee !in w.userWhiteList)
    ensures p !in Filter(w, prs)
  {
  }

  /** An empty whitelist drops nothing for whitelist reasons: the non-WIP records all pass. */
  lemma FilterOpenWhitelist(w: WatchList, prs: seq<PullRequest>)
    requires |w.userWhiteList| == 0
    requires forall i :: 0 <= i < |prs| ==> !IsWIP(prs[i])
    ensures Filter(w, prs) == prs
  {
    Seqs.SelectAll(prs, p => Keep(w, p));
  }

  /** Filtering is idempotent and distributes over concatenation of streams. */
  lemma FilterIdempotentAndAppend(w: WatchList, a: seq<PullRequest>, b: seq<PullRequest>)
    ensures Filter(w, Filter(w, a)) == Filter(w, a)
    ensures Filter(w, a + b) == Filter(w, a) + Filter(w, b)
  {
    Seqs.SelectIdempotent(a, p => Keep(w, p));
    Seqs.SelectAppend(a, b, p => Keep(w, p));
  }

  const Bullet := "\U{2022}"

  /** The part of the display line before the optional assignee clause. */
  function DisplayHead(p: PullRequest): string
  {
    " " + Bullet + " <" + p.webLink + "|PR #" + Itoa(p.id) + "> " + p.title + "  - _" + p.author + "_"
  }

  /** The optional assignee clause. */
  function AssigneeClause(p: PullRequest): string
  {
    if p.assignee != "" then ", assigned to _" + p.assignee + "_" else ""
  }

  /** The relative-time tail of the display line. */
  function DisplayTail(p: PullRequest, humanize: Humanizer): string
  {
    " - updated " + humanize(p.updated)
  }

  /**
    `PullRequest.String`: the link, number, title and author, then the
    assignee clause exactly when there is an assignee, then the relative
    update time.
  */
  function Display(p: PullRequest, humanize: Humanizer): (r: string)
    ensures |r| >= |DisplayHead(p)| + |DisplayTail(p, humanize)|
    ensures r[..|DisplayHead(p)|] == DisplayHead(p)
    ensures r[|r| - |DisplayTail(p, humanize)|..] == DisplayTail(p, humanize)
    ensures p.assignee == "" <==> |r| == |DisplayHead(p)| + |DisplayTail(p, humanize)|
    ensures p.assignee != "" ==>
      r[|DisplayHead(p)|..|r| - |DisplayTail(p, humanize)|] == ", assigned to _" + p.assignee + "_"
  {
    DisplayHead(p) + AssigneeClause(p) + DisplayTail(p, humanize)
  }

  /** `%d` never prints a line break. */
  lemma ItoaNoBreak(n: int)
    ensures '\n' !in Itoa(n)
  {
    var s := Itoa(n);
    forall i | 0 <= i < |s|
      ensures s[i] != '\n'
    {
      if n < 0 && i > 0 {
        assert s[i] == s[1..][i - 1];
      }
    }
  }

  /** A record whose text fields have no line break displays as exactly one line. */
  lemma DisplayIsOneLine(p: PullRequest, humanize: Humanizer)
    requires '\n' !in p.webLink && '\n' !in p.title && '\n' !in p.author && '\n' !in p.assignee
    requires '\n' !in humanize(p.updated)
    ensures '\n' !in Display(p, humanize)
  {
    ItoaNoBreak(p.id);
    var head := DisplayHead(p);
    var clause := AssigneeClause(p);
    var tail := DisplayTail(p, humanize);
    assert '\n' !in head;
    assert '\n' !in clause;
    assert '\n' !in tail;
    assert Display(p, humanize) == head + clause + tail;
  }
}

=== FILE: seqs.dfy ===
/** Sequence vocabulary used by the pipeline: subsequences, order-preserving selection, flattening. */
module Seqs {

  /** `a` can be obtained from `b` by deleting elements, keeping the order of the rest. */
  predicate IsSubsequence<T(==)>(a: seq<T>, b: seq<T>)
    decreases |b|
  {
    if |a| == 0 then true
    else if |b| == 0 then false
    else if a[0] == b[0] then IsSubsequence(a[1..], b[1..])
    else IsSubsequence(a, b[1..])
  }

  predicate Distinct<T(==)>(s: seq<T>)
  {
    forall i, j :: 0 <= i < j < |s| ==> s[i] != s[j]
  }

  /** Concatenation of a sequence of sequences. */
  function Flatten<T>(ss: seq<seq<T>>): seq<T>
  {
    if |ss| == 0 then [] else ss[0] + Flatten(ss[1..])
  }

  lemma {:induction false} FlattenAppend<T>(a: seq<seq<T>>, b: seq<seq<T>>)
    ensures Flatten(a + b) == Flatten(a) + Flatten(b)
    decreases |a|
  {
    if |a| == 0 {
      assert a + b == b;
    } else {
      assert (a + b)[1..] == a[1..] + b;
      FlattenAppend(a[1..], b);
    }
  }

  /**
    The elements of `s` satisfying `keep`, in their original order: a
    subsequence of `s` that holds every kept occurrence and nothing else.
  */
  function Select<T(==,!new)>(s: seq<T>, keep: T -> bool): (r: seq<T>)
    ensures IsSubsequence(r, s)
    ensures forall x :: multiset(r)[x] == if keep(x) then multiset(s)[x] else 0
    ensures forall x :: x in r ==> keep(x) && x in s
    decreases |s|
  {
    if |s| == 0 then []
    else
      var rest := Select(s[1..], keep);
      assert s == [s[0]] + s[1..];
      if keep(s[0]) then
        assert ([s[0]] + rest)[1..] == rest;
        [s[0]] + rest
      else
        SubsequenceDrop(rest, s);
        rest
  }

  lemma {:induction false} SubsequenceDrop<T>(a: seq<T>, b: seq<T>)
    requires |b| > 0 && IsSubsequence(a, b[1..])
    ensures IsSubsequence(a, b)
    decreases |b|, 0
  {
    if |a| > 0 && a[0] == b[0] {
      SubsequenceTail(a, b[1..]);
    }
  }

  lemma {:induction false} SubsequenceTail<T>(a: seq<T>, b: seq<T>)
    requires |a| > 0 && IsSubsequence(a, b)
    ensures IsSubsequence(a[1..], b)
    decreases |b|, 1
  {
    if a[0] != b[0] {
      SubsequenceTail(a, b[1..]);
    }
    SubsequenceDrop(a[1..], b);
  }

  lemma {:induction false} SelectAppend<T(!new)>(a: seq<T>, b: seq<T>, keep: T -> bool)
    ensures Select(a + b, keep) == Select(a, keep) + Select(b, keep)
    decreases |a|
  {
    if |a| == 0 {
      assert a + b == b;
    } else {
      assert (a + b)[1..] == a[1..] + b;
      SelectAppend(a[1..], b, keep);
    }
  }

  /** Selecting twice with the same test changes nothing. */
  lemma {:induction false} SelectIdempotent<T(!new)>(s: seq<T>, keep: T -> bool)
    ensures Select(Select(s, keep), keep) == Select(s, keep)
    decreases |s|
  {
    if |s| > 0 {
      SelectIdempotent(s[1..], keep);
      var rest := Select(s[1..], keep);
      if keep(s[0]) {
        assert ([s[0]] + rest)[1..] == rest;
      }
    }
  }

  /** If every element passes, selection is the identity. */
  lemma {:induction false} SelectAll<T(!new)>(s: seq<T>, keep: T -> bool)
    requires forall i :: 0 <= i < |s| ==> keep(s[i])
    ensures Select(s, keep) == s
    decreases |s|
  {
    if |s| > 0 {
      SelectAll(s[1..], keep);
      assert s == [s[0]] + s[1..];
    }
  }
}

=== FILE: strings.dfy ===
/**
  The parts of Go's `strings` and `fmt` packages the bot relies on:
  `Split` and `Join` on a one-character separator, `Contains`, `HasSuffix`,
  `Fields` (splitting around runs of Unicode white space) and the `%d` verb.
*/
module Strings {

  /** Number of occurrences of `c` in `s`. */
  function Count(s: string, c: char): nat
  {
    if |s| == 0 then 0 else (if s[0] == c then 1 else 0) + Count(s[1..], c)
  }

  lemma {:induction false} CountZero(s: string, c: char)
    ensures Count(s, c) == 0 <==> c !in s
  {
    if |s| > 0 {
      CountZero(s[1..], c);
      assert s == [s[0]] + s[1..];
    }
  }

  /** `strings.Join(parts, string(sep))`; joining nothing gives "". */
  function Join(parts: seq<string>, sep: char): string
  {
    if |parts| == 0 then ""
    else if |parts| == 1 then parts[0]
    else parts[0] + [sep] + Join(parts[1..], sep)
  }

  /** The lengths of the pieces, added up. */
  function TotalLength(parts: seq<string>): nat
  {
    if |parts| == 0 then 0 else |parts[0]| + TotalLength(parts[1..])
  }

  /** A join is as long as its pieces together plus one separator between each two. */
  lemma {:induction false} JoinLength(parts: seq<string>, sep: char)
    ensures |Join(parts, sep)| == TotalLength(parts) + (if |parts| == 0 then 0 else |parts| - 1)
    decreases |parts|
  {
    if |parts| > 1 {
      JoinLength(parts[1..], sep);
    }
  }

  /**
    `strings.Split(s, string(sep))`: the pieces between separators, so there
    is always one more piece than separators and "" splits into [""].
  */
  function Split(s: string, sep: char): (parts: seq<string>)
    ensures |parts| == Count(s, sep) + 1
    ensures forall i :: 0 <= i < |parts| ==> sep !in parts[i]
    ensures Join(parts, sep) == s
    decreases |s|
  {
    if |s| == 0 then [""]
    else
      var rest := Split(s[1..], sep);
      assert s == [s[0]] + s[1..];
      if s[0] == sep then [""] + rest
      else [[s[0]] + rest[0]] + rest[1..]
  }

  lemma {:induction false} JoinNoSep(parts: seq<string>, sep: char)
    requires forall i :: 0 <= i < |parts| ==> sep !in parts[i]
    ensures Count(Join(parts, sep), sep) == if |parts| == 0 then 0 else |parts| - 1
    decreases |parts|
  {
    if |parts| == 1 {
      CountZero(parts[0], sep);
    } else if |parts| > 1 {
      JoinNoSep(parts[1..], sep);
      CountZero(parts[0], sep);
      CountAppend(parts[0] + [sep], Join(parts[1..], sep), sep);
      CountAppend(parts[0], [sep], sep);
    }
  }

  lemma {:induction false} CountAppend(a: string, b: string, c: char)
    ensures Count(a + b, c) == Count(a, c) + Count(b, c)
    decreases |a|
  {
    if |a| > 0 {
      assert (a + b)[1..] == a[1..] + b;
      CountAppend(a[1..], b, c);
    } else {
      assert a + b == b;
    }
  }

  /** The other half of the round trip: pieces without separators survive a join and a split. */
  lemma {:induction false} SplitJoin(parts: seq<string>, sep: char)
    requires |parts| > 0
    requires forall i :: 0 <= i < |parts| ==> sep !in parts[i]
    ensures Split(Join(parts, sep), sep) == parts
    decreases |parts|
  {
    var r := Split(Join(parts, sep), sep);
    JoinNoSep(parts, sep);
    assert |r| == |parts|;
    if |parts| == 1 {
      assert Join(r, sep) == parts[0];
      assert r == [r[0]];
    } else {
      SplitJoin(parts[1..], sep);
      SplitPrefix(parts[0], Join(parts[1..], sep), sep);
    }
  }

  /** Splitting `a + [sep] + b` where `a` has no separator: `a` comes first, then the pieces of `b`. */
  lemma {:induction false} SplitPrefix(a: string, b: string, sep: char)
    requires sep !in a
    ensures Split(a + [sep] + b, sep) == [a] + Split(b, sep)
    decreases |a|
  {
    if |a| == 0 {
      assert a + [sep] + b == [sep] + b;
      assert ([sep] + b)[1..] == b;
    } else {
      assert (a + [sep] + b)[1..] == a[1..] + [sep] + b;
      SplitPrefix(a[1..], b, sep);
      assert [a[0]] + a[1..] == a;
    }
  }

  /** A character is missing from a concatenation iff it is missing from both parts. */
  lemma AbsentAppend(a: string, b: string, c: char)
    ensures c !in a + b <==> c !in a && c !in b
  {
    if c in a + b {
      var i :| 0 <= i < |a + b| && (a + b)[i] == c;
      if i >= |a| {
        assert b[i - |a|] == c;
      }
    }
  }

  /** `sub` occurs in `s` starting at index `i`. */
  predicate OccursAt(s: string, sub: string, i: int)
  {
    0 <= i && i + |sub| <= |s| && s[i..i + |sub|] == sub
  }

  /** `strings.Contains(s, sub)`, scanning from the left. */
  function Contains(s: string, sub: string): (b: bool)
    ensures b <==> exists i :: OccursAt(s, sub, i)
    decreases |s|
  {
    if |sub| <= |s| && s[..|sub|] == sub then
      assert OccursAt(s, sub, 0);
      true
    else if |s| == 0 then
      assert forall i :: !OccursAt(s, sub, i);
      false
    else
      var b := Contains(s[1..], sub);
      assert forall i :: OccursAt(s[1..], sub, i) <==> OccursAt(s, sub, i + 1);
      assert !OccursAt(s, sub, 0);
      assert forall i :: OccursAt(s, sub, i) && i != 0 ==> OccursAt(s[1..], sub, i - 1);
      b
  }

  /** `strings.HasSuffix(s, suffix)`. */
  predicate HasSuffix(s: string, suffix: string)
  {
    |suffix| <= |s| && s[|s| - |suffix|..] == suffix
  }

  /** `s` ends with `suffix` exactly when it is something followed by `suffix`. */
  lemma HasSuffixMeans(s: string, suffix: string)
    ensures HasSuffix(s, suffix) <==> exists p :: p + suffix == s
  {
    if HasSuffix(s, suffix) {
      assert s[..|s| - |suffix|] + suffix == s;
    }
    forall p | p + suffix == s
      ensures HasSuffix(s, suffix)
    {
      assert (p + suffix)[|p|..] == suffix;
    }
  }

  lemma EndsWith(a: string, b: string)
    ensures HasSuffix(a + b, b)
  {
    assert (a + b)[|a + b| - |b|..] == b;
  }

  /** A text ends with its last three pieces, taken together. */
  lemma EndsWithLast3(a: string, x: string, y: string, z: string)
    ensures HasSuffix(a + x + y + z, x + y + z)
  {
    assert a + x + y + z == a + (x + y + z);
    EndsWith(a, x + y + z);
  }

  /** `unicode.IsSpace`: the Latin-1 spaces plus the other code points with the White_Space property. */
  predicate IsSpace(c: char)
  {
    || c == ' ' || c == '\t' || c == '\n' || c == '\r'
    || c == '\U{000B}' || c == '\U{000C}' || c == '\U{0085}' || c == '\U{00A0}'
    || c == '\U{1680}' || ('\U{2000}' <= c <= '\U{200A}')
    || c == '\U{2028}' || c == '\U{2029}' || c == '\U{202F}' || c == '\U{205F}' || c == '\U{3000}'
  }

  predicate NoSpace(w: string)
  {
    forall i :: 0 <= i < |w| ==> !IsSpace(w[i])
  }

  /** Length of the run of non-space characters at the head of `s`. */
  function WordLength(s: string): (n: nat)
    ensures n <= |s|
    ensures NoSpace(s[..n])
    ensures n == |s| || IsSpace(s[n])
    decreases |s|
  {
    if |s| == 0 || IsSpace(s[0]) then 0
    else
      var m := WordLength(s[1..]);
      assert s[..m + 1] == [s[0]] + s[1..][..m];
      1 + m
  }

  /** `strings.Fields(s)`: the maximal runs of non-space characters, in order. */
  function Fields(s: string): (ws: seq<string>)
    ensures forall i :: 0 <= i < |ws| ==> |ws[i]| > 0 && NoSpace(ws[i])
    decreases |s|
  {
    if |s| == 0 then []
    else if IsSpace(s[0]) then Fields(s[1..])
    else
      var n := WordLength(s);
      [s[..n]] + Fields(s[n..])
  }

  /** A text has no fields exactly when it is white space only. */
  lemma {:induction false} FieldsNone(s: string)
    ensures Fields(s) == [] <==> AllSpace(s)
    decreases |s|
  {
    if |s| > 0 && IsSpace(s[0]) {
      FieldsNone(s[1..]);
      assert AllSpace(s) <==> AllSpace(s[1..]);
    }
  }

  /** Non-empty words without white space come back from `Fields` after being joined with blanks. */
  lemma {:induction false} FieldsJoin(ws: seq<string>)
    requires forall i :: 0 <= i < |ws| ==> |ws[i]| > 0 && NoSpace(ws[i])
    ensures Fields(Join(ws, ' ')) == ws
    decreases |ws|
  {
    if |ws| == 1 {
      WordWhole(ws[0]);
      assert ws[0][|ws[0]|..] == [];
    } else if |ws| > 1 {
      var rest := Join(ws[1..], ' ');
      assert Join(ws, ' ') == ws[0] + ([' '] + rest);
      WordThenRest(ws[0], [' '] + rest);
      SkipSpace([' '], rest);
      FieldsJoin(ws[1..]);
    }
  }

  /** White space only (possibly nothing). */
  predicate AllSpace(g: string)
  {
    forall i :: 0 <= i < |g| ==> IsSpace(g[i])
  }

  /** The words with the gaps around and between them: `gaps[0] + ws[0] + gaps[1] + ... + ws[n-1] + gaps[n]`. */
  function Spaced(ws: seq<string>, gaps: seq<string>): string
    requires |gaps| == |ws| + 1
  {
    if |ws| == 0 then gaps[0] else gaps[0] + (ws[0] + Spaced(ws[1..], gaps[1..]))
  }

  /** Gaps that separate words: white space only, one more gap than words, and the inner gaps not empty. */
  predicate Separates(ws: seq<string>, gaps: seq<string>)
  {
    && |gaps| == |ws| + 1
    && (forall i :: 0 <= i < |gaps| ==> AllSpace(gaps[i]))
    && (forall i :: 0 < i < |ws| ==> |gaps[i]| > 0)
  }

  predicate AllWords(ws: seq<string>)
  {
    forall i :: 0 <= i < |ws| ==> |ws[i]| > 0 && NoSpace(ws[i])
  }

  /**
    Words separated by runs of white space, with optional white space
    before the first and after the last: whatever the runs, `Fields` yields
    exactly those words. By `Gaps`, every string can be written this way,
    so this determines `Fields` on every input.
  */
  lemma {:induction false} FieldsSpaced(ws: seq<string>, gaps: seq<string>)
    requires AllWords(ws) && Separates(ws, gaps)
    ensures Fields(Spaced(ws, gaps)) == ws
    decreases |ws|
  {
    if |ws| == 0 {
      SkipSpace(gaps[0], []);
      assert gaps[0] + [] == gaps[0];
    } else {
      var rest := Spaced(ws[1..], gaps[1..]);
      SkipSpace(gaps[0], ws[0] + rest);
      if |ws| > 1 {
        assert rest == gaps[1] + (ws[1] + Spaced(ws[2..], gaps[2..]));
        assert rest[0] == gaps[1][0];
      }
      WordThenRest(ws[0], rest);
      FieldsSpaced(ws[1..], gaps[1..]);
    }
  }

  /**
    The white space around and between the fields of `s`: `s` is its
    fields spaced by these gaps, the leading and trailing ones possibly
    empty and the inner ones not.
  */
  function Gaps(s: string): (gaps: seq<string>)
    ensures Separates(Fields(s), gaps)
    ensures |s| > 0 && IsSpace(s[0]) ==> |gaps[0]| > 0
    ensures Spaced(Fields(s), gaps) == s
    decreases |s|
  {
    if |s| == 0 then [""]
    else if IsSpace(s[0]) then
      var g := Gaps(s[1..]);
      FieldsAfterSpace(s);
      SpacedLonger(s[0], Fields(s[1..]), g);
      [[s[0]] + g[0]] + g[1..]
    else
      var n := WordLength(s);
      var g := Gaps(s[n..]);
      FieldsAfterWord(s);
      SpacedWord(s[..n], Fields(s[n..]), g);
      [""] + g
  }

  /** Leading white space is skipped. */
  lemma {:induction false} FieldsAfterSpace(s: string)
    requires |s| > 0 && IsSpace(s[0])
    ensures Fields(s) == Fields(s[1..])
    ensures s == [s[0]] + s[1..]
  {
  }

  /** A leading word is the first field, and white space or nothing follows it. */
  lemma {:induction false} FieldsAfterWord(s: string)
    requires |s| > 0 && !IsSpace(s[0])
    ensures Fields(s) == [s[..WordLength(s)]] + Fields(s[WordLength(s)..])
    ensures s == s[..WordLength(s)] + s[WordLength(s)..]
  {
    var n := WordLength(s);
    assert Fields(s) == [s[..n]] + Fields(s[n..]);
    assert s == s[..n] + s[n..];
  }

  /** More white space in front of the first gap. */
  lemma SpacedLonger(c: char, ws: seq<string>, g: seq<string>)
    requires IsSpace(c) && Separates(ws, g)
    ensures Separates(ws, [[c] + g[0]] + g[1..])
    ensures Spaced(ws, [[c] + g[0]] + g[1..]) == [c] + Spaced(ws, g)
  {
    var gaps := [[c] + g[0]] + g[1..];
    assert gaps[1..] == g[1..];
    assert AllSpace(gaps[0]);
  }

  /** One more word in front, with no white space before it. */
  lemma SpacedWord(w: string, ws: seq<string>, g: seq<string>)
    requires Separates(ws, g) && (|ws| > 0 ==> |g[0]| > 0)
    ensures Separates([w] + ws, [""] + g)
    ensures Spaced([w] + ws, [""] + g) == w + Spaced(ws, g)
  {
    assert ([w] + ws)[1..] == ws && ([""] + g)[1..] == g;
  }

  /** Leading white space does not change the fields. */
  lemma {:induction false} SkipSpace(g: string, t: string)
    requires AllSpace(g)
    ensures Fields(g + t) == Fields(t)
    decreases |g|
  {
    if |g| > 0 {
      assert (g + t)[1..] == g[1..] + t;
      SkipSpace(g[1..], t);
    } else {
      assert g + t == t;
    }
  }

  /** A word followed by nothing or by white space is the first field. */
  lemma WordThenRest(w: string, rest: string)
    requires |w| > 0 && NoSpace(w)
    requires rest == [] || IsSpace(rest[0])
    ensures Fields(w + rest) == [w] + Fields(rest)
  {
    if rest == [] {
      WordWhole(w);
      assert w + rest == w;
    } else {
      WordThenSpace(w, rest);
      assert (w + rest)[|w|..] == rest;
    }
  }

  lemma {:induction false} WordWhole(w: string)
    requires |w| > 0 && NoSpace(w)
    ensures WordLength(w) == |w|
    ensures Fields(w) == [w]
    decreases |w|
  {
    if |w| > 1 {
      WordWhole(w[1..]);
    } else {
      assert WordLength(w[1..]) == 0;
    }
    assert w[..|w|] == w;
    assert w[|w|..] == [];
  }

  lemma {:induction false} WordThenSpace(w: string, rest: string)
    requires |w| > 0 && NoSpace(w)
    requires |rest| > 0 && IsSpace(rest[0])
    ensures WordLength(w + rest) == |w|
    ensures (w + rest)[..|w|] == w
    decreases |w|
  {
    if |w| > 1 {
      assert (w + rest)[1..] == w[1..] + rest;
      WordThenSpace(w[1..], rest);
    } else {
      assert (w + rest)[1..] == rest;
    }
  }

  /** The ASCII digit for 0 <= d < 10. */
  function Digit(d: nat): char
    requires d < 10
  {
    ['0', '1', '2', '3', '4', '5', '6', '7', '8', '9'][d]
  }

  predicate IsDigit(c: char)
  {
    '0' <= c <= '9'
  }

  /** Decimal digits of a natural number, most significant first, without leading zeros. */
  function NatToDecimal(n: nat): (s: string)
    ensures |s| > 0
    ensures AllDigits(s)
    ensures |s| > 1 ==> s[0] != '0'
  {
    if n < 10 then [Digit(n)] else NatToDecimal(n / 10) + [Digit(n % 10)]
  }

  /** The value a string of digits denotes. */
  function DecimalValue(s: string): int
    requires AllDigits(s)
  {
    if |s| == 0 then 0
    else 10 * DecimalValue(s[..|s| - 1]) + ((s[|s| - 1] as int) - ('0' as int))
  }

  predicate AllDigits(s: string)
  {
    forall i :: 0 <= i < |s| ==> IsDigit(s[i])
  }

  /** `%d` on a natural number reads back as that number. */
  lemma {:induction false} DecimalRoundTrip(n: nat)
    ensures DecimalValue(NatToDecimal(n)) == n
  {
    var s := NatToDecimal(n);
    if n >= 10 {
      DecimalRoundTrip(n / 10);
      assert s[..|s| - 1] == NatToDecimal(n / 10);
    }
  }

  /** Go's `%d` verb on a signed integer. */
  function Itoa(n: int): (s: string)
    ensures |s| > 0
    ensures n >= 0 ==> AllDigits(s) && DecimalValue(s) == n
    ensures n < 0 ==> s[0] == '-' && AllDigits(s[1..]) && DecimalValue(s[1..]) == -n
    ensures n >= 0 && |s| > 1 ==> s[0] != '0'
    ensures n < 0 ==> |s| > 1 && (|s| > 2 ==> s[1] != '0')
  {
    DecimalRoundTrip(if n < 0 then -n else n);
    if n < 0 then "-" + NatToDecimal(-n) else NatToDecimal(n)
  }
}

=== FILE: users.dfy ===
/** The Slack user directory the command handlers consult (`AddUser`/`GetUser` in main.go). */
module Users {
  import opened Wrappers

  /** The parts of a Slack user the bot reads. */
  datatype User = User(id: string, name: string, email: string)

  type Directory = map<string, User>

  /** `AddUser`: the user is stored under its ID, replacing any earlier entry. */
  function AddUser(dir: Directory, u: User): (r: Directory)
    ensures u.id in r && r[u.id] == u
    ensures r.Keys == dir.Keys + {u.id}
    ensures forall id :: id in dir && id != u.id ==> r[id] == dir[id]
  {
    dir[u.id := u]
  }

  /** `GetUser`: the stored user, if any. */
  function GetUser(dir: Directory, id: string): (r: Option<User>)
    ensures r.Some? <==> id in dir
    ensures r.Some? ==> r.value == dir[id]
  {
    if id in dir then Some(dir[id]) else None
  }

  /** Registering a list of users in order, as the connect handler does. */
  function AddAll(dir: Directory, us: seq<User>): Directory
    decreases |us|
  {
    if |us| == 0 then dir else AddAll(AddUser(dir, us[0]), us[1..])
  }

  /** Position of the last user in `us` with the given ID. */
  function LastWithId(us: seq<User>, id: string): (k: Option<nat>)
    ensures k.Some? ==>
      && k.value < |us| && us[k.value].id == id
      && forall j :: k.value < j < |us| ==> us[j].id != id
    ensures k.None? ==> forall j :: 0 <= j < |us| ==> us[j].id != id
    decreases |us|
  {
    if |us| == 0 then None
    else if us[|us| - 1].id == id then Some(|us| - 1)
    else LastWithId(us[..|us| - 1], id)
  }

  /**
    Starting from an empty directory, a user is found iff some `AddUser`
    call carried that ID, and the latest such call wins.
  */
  lemma {:induction false} GetAfterAddAll(us: seq<User>, id: string)
    ensures GetUser(AddAll(map[], us), id) ==
      (match LastWithId(us, id) case Some(k) => Some(us[k]) case None => None)
  {
    AddAllLast(map[], us, id);
  }

  lemma {:induction false} AddAllLast(dir: Directory, us: seq<User>, id: string)
    ensures GetUser(AddAll(dir, us), id) ==
      (match LastWithId(us, id) case Some(k) => Some(us[k]) case None => GetUser(dir, id))
    decreases |us|
  {
    if |us| > 0 {
      AddAllLast(AddUser(dir, us[0]), us[1..], id);
      var tail := LastWithId(us[1..], id);
      var whole := LastWithId(us, id);
      if tail.Some? {
        assert us[1..][tail.value] == us[tail.value + 1];
        LastWithIdUnique(us, id, tail.value + 1);
      } else if us[0].id == id {
        LastWithIdUnique(us, id, 0);
      } else {
        assert forall j :: 0 <= j < |us| ==> us[j].id != id by {
          forall j | 0 <= j < |us| ensures us[j].id != id {
            if j > 0 { assert us[1..][j - 1] == us[j]; }
          }
        }
      }
    }
  }

  lemma LastWithIdUnique(us: seq<User>, id: string, k: nat)
    requires k < |us| && us[k].id == id
    requires forall j :: k < j < |us| ==> us[j].id != id
    ensures LastWithId(us, id) == Some(k)
  {
  }
}

=== FILE: wrappers.dfy ===
/** Failure-carrying values shared by every module of the model. */
module Wrappers {

  datatype Option<+T> = None | Some(value: T) {
    function GetOr(default: T): T {
      match this
      case Some(v) => v
      case None => default
    }
  }

  /** The Go convention `(value, error)`: exactly one of the two is meaningful. */
  datatype Result<+R, +E> = Success(value: R) | Failure(error: E)
}
